=== FILE: README.md ===
# User scripts: mutation-batch helpers, appearance watchers and page patches

This project models three browser userscripts:

- `asana-helpers-markdown.js` adds helpers to Asana's task pages.
- `asana-favicon-notification.js` switches the favicon while Asana's sidebar shows a notification indicator.
- `only-single-comments.js` makes GitHub's inline review-comment forms post single comments by default.

The scripts share one core: they filter the record batches a `MutationObserver` delivers, look for elements among the added nodes, and wait for an element to appear. Around that core sit small page patches and decision rules.

The document is a value tree (`Dom.Node`):

- An element has an identity (`uid`), a tag, an ordered class list, attributes and children.
- A text node has an identity and character data. It has neither `matches` nor `querySelectorAll`.

A CSS selector is known only by the elements it accepts. The selectors whose content matters to a script are written out: `#asana_sidebar`, `.NotificationsIndicator`, GitHub's form, input and button selectors, and the descendant combinators `A B C`.

The modules are:

- `Dom`: the tree, `querySelector`/`querySelectorAll` in document order, descendant combinators, and `classList` add/remove/toggle.
- `Mutations`: `getAddedNodes`, `queryAll` and `didAddOrRemoveNodes`. These appear in two scripts and are modelled once.
- `Observation`: the state of a one-shot wait. The outcome is `Pending`, `Resolved(node)` or `Rejected(reason)`. The state also records whether an observer was installed, whether it is connected, and how often it was disconnected. The module proves properties of any callback that disconnects exactly when it settles, over any sequence of deliveries.
- `AddedNodeWait`: `waitForAddedNode`, a pure callback plus a class `AddedNodeWatcher` whose method steps it. The clock is a parameter.
- `FaviconNotification`: `waitForSideBar`, the `updateFavicon` latch on `lastState`, and `install` as a class with phases.
- `AsanaHelpers`: `getEditor` (an imperative walk), the paste guard, `switchTheme`, the read-only toggle and display, task-URL building and the Markdown link.
- `SingleComments`: `defaultToSingleComment` on one form, located in the page by identity; the `observe` callback; the initial pass over existing forms.

## Model

| member | source | states |
|---|---|---|
| Dom.Filter | asana-helpers-markdown.js:59 | keeps exactly the nodes that have `matches` and match; never longer than its input |
| Dom.FilterHeadIsFirst | asana-helpers-markdown.js:59 | the head of a filter is the first matching node of the input |
| Dom.FilterFirst | asana-helpers-markdown.js:59 | the filter keeps input order: the first matching node comes first |
| Dom.QuerySelectorAll | only-single-comments.js:54 | exactly the matching element descendants, not the node itself |
| Dom.QuerySelector | asana-helpers-markdown.js:170 | null iff no descendant matches; otherwise the first matching descendant in document order (`IsFirstMatch`), the head of `querySelectorAll` |
| Dom.QueryChain | only-single-comments.js:32 | an element is a result of `A B … Z` iff it is a descendant matching `Z` whose path from the queried node holds elements matching `A`, `B`, … in order (`ChainMatch`); the results keep document order (`IsSubsequence` of the descendants) |
| Dom.ProgressEmbeds | only-single-comments.js:32 | taking each selector at the first ancestor that matches it reaches the last selector iff the path holds the selectors in order |
| Dom.ChildrenChainMatch | only-single-comments.js:32-33 | the greedy chain walk below an element selects exactly the `ChainMatch` elements, in both directions |
| Dom.QueryChainFirst | only-single-comments.js:32-33 | null iff no element satisfies `ChainMatch`; otherwise the first result of the chain query, which satisfies it and, when no descendant repeats, is the first descendant in document order that does (`FirstChainMatch`) |
| Dom.ChainForestInOrder | only-single-comments.js:32 | the chain query over a list of trees returns its matches in document order, a subsequence of the preorder walk |
| Dom.SubsequenceHead | only-single-comments.js:32-33 | in a list without repeats, the head of an order-preserving subsequence is preceded by no other entry of that subsequence |
| Dom.QueryChainSingle | asana-helpers-markdown.js:210 | a chain of one selector is the plain `querySelectorAll` |
| Dom.RemoveToken | asana-helpers-markdown.js:368-373 | the class is absent afterwards; other classes are kept; no change when it was absent |
| Dom.AddToken | asana-helpers-markdown.js:374 | the class is present afterwards, appended only when absent; other classes are kept |
| Dom.ToggleToken | asana-helpers-markdown.js:253-254 | with `force`, the class is present iff `force`; other classes are kept |
| Mutations.AddedNodes | asana-helpers-markdown.js:52-56 | a node is in the result iff it is among the added nodes of a `childList` record |
| Mutations.AddedNodesAppend | asana-helpers-markdown.js:52-56 | added nodes come concatenated in record order |
| Mutations.AddedNodesIgnoresOtherKinds | asana-helpers-markdown.js:54 | records of other kinds contribute nothing |
| Mutations.QueryEach | asana-helpers-markdown.js:60 | every element found below the nodes matches |
| Mutations.QueryEachMembers | asana-helpers-markdown.js:60 | found iff a matching descendant of some input node |
| Mutations.QueryAll | asana-helpers-markdown.js:58-61 | every result matches; the self-matching nodes come first, in input order |
| Mutations.QueryAllMembers | asana-helpers-markdown.js:58-61 | in the result iff an input node that matches, or a matching descendant of one |
| Mutations.SelfMatchFirst | asana-helpers-markdown.js:58-61 | the first input node that matches is the first result |
| Mutations.QueryAllSkipsText | asana-helpers-markdown.js:59-60 | a node without `matches`/`querySelectorAll` contributes nothing |
| Mutations.FindAddOrRemove | asana-favicon-notification.js:41-45 | found iff some `childList` record adds or removes nodes; what it finds is such a record |
| Mutations.FindAddOrRemoveFirst | asana-favicon-notification.js:44 | `find` returns the first such record |
| Mutations.FindAddOrRemoveIgnoresOtherKinds | asana-favicon-notification.js:43 | attribute records do not change the answer |
| Mutations.AddedNodesMeansAddOrRemove | asana-favicon-notification.js:35-45 | a batch with added nodes counts as adding or removing |
| Observation.Begin | asana-helpers-markdown.js:170-171 | resolves, with no observer, iff a descendant matches, and then with the first one in document order; otherwise pending with a connected observer |
| Observation.RunKeepsWf | asana-helpers-markdown.js:175-189 | a well-formed wait stays well-formed over any delivery sequence |
| Observation.SettledIsFinal | asana-helpers-markdown.js:178-186 | once settled, later deliveries change nothing |
| Observation.SettlesOnce | asana-helpers-markdown.js:178-186 | after the delivery that settles it, the rest of the run changes nothing |
| Observation.DisconnectsAtMostOnce | asana-helpers-markdown.js:178-186 | at most one disconnect; a settled wait with an observer was disconnected exactly once |
| Observation.WaitingRun | asana-helpers-markdown.js:188 | deliveries that leave it pending leave the whole state as it was |
| AddedNodeWait.ObserverIsCallback | asana-helpers-markdown.js:175-189 | the callback disconnects exactly when it settles and never runs after that |
| AddedNodeWait.Callback | asana-helpers-markdown.js:175-189 | a connected observer settles on a late batch (rejected with "Observer wait timeout.") or on an in-time batch with a match (resolved with `queryAll`'s first node), disconnecting once; otherwise nothing changes |
| AddedNodeWait.TimeoutBeforeMatch | asana-helpers-markdown.js:176-180 | any late batch, with or without a match in it, rejects with "Observer wait timeout." and disconnects once |
| AddedNodeWait.WaitsThroughMisses | asana-helpers-markdown.js:182-188 | in-time batches without a match leave the whole state as it was |
| AddedNodeWait.RunResolvesWithMatch | asana-helpers-markdown.js:182-186 | any run keeps "resolved only with a matching node" |
| AddedNodeWait.ResolvedNodeMatches | asana-helpers-markdown.js:169-194 | from the start, the promise resolves only with a node matching the selector |
| AddedNodeWait.ResolvesAtFirstMatchingBatch | asana-helpers-markdown.js:182-188 | earlier batches without a match leave it pending and connected; the first in-time match resolves with `queryAll`'s first node, with one disconnect |
| AddedNodeWait.UnrelatedThenWanted | asana-helpers-markdown.js:169-194 | an empty root, then an unrelated child, then a wanted one: one resolution, with the wanted node |
| AddedNodeWait.AddedNodeWatcher.constructor | asana-helpers-markdown.js:169-174 | the state is `Begin(root, target)` and the clock reading is stored |
| AddedNodeWait.AddedNodeWatcher.OnMutations | asana-helpers-markdown.js:175-189 | the new state is the callback on the old one; well-formedness is kept |
| FaviconNotification.SidebarCallback | asana-favicon-notification.js:60-78 | a connected observer settles iff the batch adds a sidebar (resolved with the first sidebar `queryAll` finds among the added nodes) or a full page (rejected with no reason), disconnecting once; otherwise nothing changes |
| FaviconNotification.SidebarObserverIsCallback | asana-favicon-notification.js:60-78 | the sidebar callback disconnects exactly when it settles |
| FaviconNotification.SidebarBeforeFullPage | asana-favicon-notification.js:63-68 | a batch with a sidebar and a full page resolves with the sidebar and disconnects once |
| FaviconNotification.FullPageRejects | asana-favicon-notification.js:70-75 | a full page without a sidebar rejects with no reason and disconnects once |
| FaviconNotification.WaitsWithoutTimeout | asana-favicon-notification.js:77 | batches with neither leave the wait pending and connected, however many arrive |
| FaviconNotification.SidebarWatcher.constructor | asana-favicon-notification.js:53-58 | a present sidebar resolves at once with no observer; otherwise pending with a connected observer |
| FaviconNotification.SidebarWatcher.OnMutations | asana-favicon-notification.js:60-78 | the new state is the sidebar callback on the old one |
| FaviconNotification.IconFor | asana-favicon-notification.js:28 | the unread icon iff there are notifications, the read icon otherwise |
| FaviconNotification.UpdateFavicon | asana-favicon-notification.js:20-32 | the same value as `lastState`, or no link, changes nothing; otherwise the latch records the value, the link gets its icon and is rewritten once |
| FaviconNotification.UpdateShows | asana-favicon-notification.js:24-31 | the link keeps showing the icon for the recorded state; with a link, the latch then holds the argument and the link shows its icon |
| FaviconNotification.UpdateIdempotent | asana-favicon-notification.js:24-31 | a second call with the same value changes nothing |
| FaviconNotification.RewritesOnlyOnTransitions | asana-favicon-notification.js:24-31 | over any call sequence, the link is rewritten once per change of value; the last value is recorded |
| FaviconNotification.FaviconLatch.constructor | asana-favicon-notification.js:18 | `lastState` starts as null |
| FaviconNotification.FaviconLatch.Update | asana-favicon-notification.js:20-32 | the state follows the latch; it throws iff the value changed and there is no favicon link |
| FaviconNotification.HasNotifications | asana-favicon-notification.js:86 | true iff a descendant of the sidebar has class `NotificationsIndicator` |
| FaviconNotification.SettledPhase | asana-favicon-notification.js:84-106 | waiting iff the sidebar wait is pending; given up iff it rejected; stopped iff it resolved and the first check throws (`FirstCheckThrows`: a new value with no favicon link); watching otherwise |
| FaviconNotification.Installer.LookForNotifications | asana-favicon-notification.js:85-88 | updates the latch with the sidebar's state and counts one check; throws as `updateFavicon` does |
| FaviconNotification.Installer.constructor | asana-favicon-notification.js:83-93 | a present sidebar gets one check before any observer; a throwing check stops the install; otherwise it waits |
| FaviconNotification.Installer.OnPageMutations | asana-favicon-notification.js:84-106 | a found sidebar gets the first check, counted once; a rejection is swallowed; later batches change nothing |
| FaviconNotification.Installer.OnSidebarMutations | asana-favicon-notification.js:94-99 | for the sidebar the wait resolved with, re-checks only while watching the sidebar and only on batches that add or remove nodes |
| AsanaHelpers.GetEditor | asana-helpers-markdown.js:149-167 | null without a `ProsemirrorEditor…` class; otherwise the nearest ancestor-or-self with class `ProsemirrorEditor`, or null when the chain runs out |
| AsanaHelpers.ConvertsPaste | asana-helpers-markdown.js:127 | converts iff inside an editor, with plain text, without HTML, and not the script's own event |
| AsanaHelpers.RedispatchedPasteIsLetThrough | asana-helpers-markdown.js:127 | the re-dispatched event and any paste with HTML are let through; plain text in an editor is converted |
| AsanaHelpers.ThemeTarget | asana-helpers-markdown.js:363-366 | light mode iff the body has dark or system-dark mode, dark mode otherwise |
| AsanaHelpers.SwitchedTheme | asana-helpers-markdown.js:368-374 | only the target theme class remains; other body classes are kept |
| AsanaHelpers.ThemeAlternates | asana-helpers-markdown.js:360-374 | each switch flips the target; two switches restore it |
| AsanaHelpers.AsanaPage.SwitchTheme | asana-helpers-markdown.js:360-377 | the body classes become the switched classes |
| AsanaHelpers.Toggled | asana-helpers-markdown.js:352-353 | `contenteditable` becomes the negation of "is `true`", written as "true"/"false"; other attributes are kept |
| AsanaHelpers.ToggleTwice | asana-helpers-markdown.js:350-355 | two toggles restore editability; a third equals the first |
| AsanaHelpers.Shown | asana-helpers-markdown.js:246-254 | 📝 with only `isNotPressed` when editable, 📖 with only `isPressed` otherwise; other classes are kept |
| AsanaHelpers.ShownIdempotent | asana-helpers-markdown.js:249-255 | refreshing twice equals refreshing once |
| AsanaHelpers.AsanaPage.RefreshReadOnlyState | asana-helpers-markdown.js:242-256 | every read-only button becomes `Shown` for the editor's state |
| AsanaHelpers.AsanaPage.ToggleReadOnly | asana-helpers-markdown.js:350-357 | throws iff there is no editor; otherwise toggles it and all buttons display the new state |
| AsanaHelpers.TaskUrl | asana-helpers-markdown.js:213 | the URL is `https://app.asana.com/0/0/`, then the id, then `/f` |
| AsanaHelpers.TaskIdRoundTrip | asana-helpers-markdown.js:213 | the URL template is injective in the id: the id is read back from the built URL by the model's own parser `TaskIdOf` (the script never parses one) |
| AsanaHelpers.TaskUrlRoundTrip | asana-helpers-markdown.js:213 | every string of the template's form is the URL built for the id `TaskIdOf` reads from it |
| AsanaHelpers.TaskUrlFromPage | asana-helpers-markdown.js:209-221 | falls back to the copy-link button iff there is neither a task pane with an id nor a conversation link |
| AsanaHelpers.TaskPaneFirst | asana-helpers-markdown.js:210-214 | a task pane with `data-task-id` wins and yields `https://app.asana.com/0/0/<id>/f` |
| AsanaHelpers.ConversationLinkSecond | asana-helpers-markdown.js:216-217 | without a task pane, the conversation title link's `href` is used |
| AsanaHelpers.MarkdownLink | asana-helpers-markdown.js:235-236 | exactly `[`, the title, `](`, the href, `)` |
| AsanaHelpers.LinkClick | asana-helpers-markdown.js:228-236 | opens a tab iff meta, ctrl, alt or button 1; otherwise copies the Markdown link |
| SingleComments.NewInput | only-single-comments.js:26-29 | the new input matches the hidden `single_comment` selector and is neither primary nor the button |
| SingleComments.EditSubtreeLabels | only-single-comments.js:32-33 | a class edit changes only the element with that identity, at its place in document order |
| SingleComments.FixedForm | only-single-comments.js:20-36 | same form identity; unchanged when the input exists; otherwise the new input is the first child, with one more child; afterwards the form holds the input (the script's button selector `.form-actions button[name="single_comment"` lacks its `]`; the model reads it as closed, as CSS parsing closes an unterminated attribute selector at the end of the string) |
| SingleComments.PromotedFindsInput | only-single-comments.js:26-33 | after the fix, the form's first hidden input is the new one |
| SingleComments.FixOnlyMovesPrimary | only-single-comments.js:30-33 | the fix inserts the input and changes no element except `btn-primary` moving from the first primary action to the `single_comment` button (the script's button selector `.form-actions button[name="single_comment"` lacks its `]`; the model reads it as closed, as CSS parsing closes an unterminated attribute selector at the end of the string) |
| SingleComments.PageDistinct | only-single-comments.js:32-33 | in a page with distinct identities no node repeats below any element of the page |
| SingleComments.FixQueriesFindFirst | only-single-comments.js:32-33 | for a form of a well-formed page, the trees the fix's two chain queries run on (the form with the input inserted, then with `btn-primary` removed) repeat no node, so each query returns the first element in document order that its chain selects (`FirstChainMatch`) |
| SingleComments.FixIdempotent | only-single-comments.js:23-24 | fixing a fixed form leaves it unchanged |
| SingleComments.FixedFormUids | only-single-comments.js:26-30 | every identity in the fixed form is an old one or the new input's |
| SingleComments.FixInPage | only-single-comments.js:20-36 | the page stays well-formed (identities below the next one and distinct), at most one identity is used, and no identity leaves the page |
| SingleComments.FixedFormKeeps | only-single-comments.js:26-33 | the fixed form's identities are the form's plus the new input's, all distinct; every element in it that held a hidden input still holds one |
| SingleComments.FixedFormReplaced | only-single-comments.js:20-36 | putting the fixed form in the page keeps identities distinct and every element that held a hidden input holding one, and the form now holds one |
| SingleComments.FixInPageKeepsFixed | only-single-comments.js:20-36 | fixing one form keeps every other element that held a hidden input holding one; the form itself, if present, holds one afterwards |
| SingleComments.FixInPageFixes | only-single-comments.js:20-36 | a form found in the page still exists and holds the input afterwards |
| SingleComments.FixInPageIdempotent | only-single-comments.js:23-24 | fixing the same form twice in a page equals fixing it once |
| SingleComments.FixEach | only-single-comments.js:48 | the page stays well-formed; at most one identity per form is used; no identity leaves the page |
| SingleComments.FixEachKeepsFixed | only-single-comments.js:48 | after fixing the forms one after another, every element that held an input still does, and so does every form of the list that already existed |
| SingleComments.FixEachFixesAll | only-single-comments.js:48 | every form of the list that was in the page is still there afterwards and holds a hidden `single_comment` input |
| SingleComments.FixForm | only-single-comments.js:26-33 | the step-by-step fix computes `FixedForm`, with the input first and one more child |
| SingleComments.ObservedForms | only-single-comments.js:38-48 | every form found among the added `childList` nodes matches the form selector |
| SingleComments.ObservedFormsAsWritten | only-single-comments.js:46-47 | fails iff some added node is a text node; otherwise the forms below the added nodes |
| SingleComments.TextNodeLosesForm | only-single-comments.js:46-47 | a batch adding a line break and a thread with a form: the script fails, the correction finds the form |
| SingleComments.ObservedFormsAgree | only-single-comments.js:38-48 | with only elements added, the script and the correction agree |
| SingleComments.TextNodesIgnored | only-single-comments.js:46-47 | with the correction, a text node among the added nodes changes nothing |
| SingleComments.AddedFormItselfSkipped | only-single-comments.js:46-47 | an added form without nested forms is not fixed, since only descendants are searched |
| SingleComments.PullRequestPage.constructor | only-single-comments.js:51-58 | the page becomes the existing forms fixed in document order, before observing starts; every one of them is then in the page and holds a hidden `single_comment` input |
| SingleComments.PullRequestPage.DefaultToSingleComment | only-single-comments.js:20-36 | the page becomes `FixInPage` of the old page |
| SingleComments.PullRequestPage.FixAll | only-single-comments.js:54-55 | the page becomes the forms fixed one after another in order |
| SingleComments.PullRequestPage.Observe | only-single-comments.js:38-49 | the corrected callback (see Findings): the forms below the added nodes, text nodes skipped, are fixed in order, and every one of them that was in the page holds a hidden `single_comment` input afterwards |

## Left out

- `marked.parse` and the re-dispatch of the converted paste. The converter is a third-party library; only the guard at `asana-helpers-markdown.js:127` is modelled.
- Host I/O: clipboard reads and writes, `window.open`, `GM.getValue`/`setValue`/`registerMenuCommand`, `updateMenuCommands`, and `resetReadOnlyState`'s preference read.
- Cosmetic UI: button and separator construction, inline CSS, `animateButton`, the base64 icon payloads (named `ReadIcon`/`UnreadIcon`), `showAllComments`/`showComments`, and console output.
- `asanaHelperShouldTaskBeEditable`, which compares CSS background strings scraped from the live page.
- `setTimeout` delays and Promise scheduling. Callbacks run one at a time in delivery order; `Date.now()` is a parameter.
- `getCurrentTaskUrlFromCopyLinkButton`: the fallback is returned as `CopyLinkButton`, not carried out.
- The `.href` of the conversation link is the URL the browser resolves. It is modelled as the attribute value.
- The title's `innerText` is a parameter of `LinkClick`.
- AsanaHelpers.GetEditor: requires a non-empty ancestor chain. For a paste target without a parent element, `getEditor(null)` throws at `element.classList` (asana-helpers-markdown.js:151); that throw is not modelled.
- `refreshReadOnlyState`'s fallback lookup when called without an editor. `toggleReadOnly` always passes one.
- The favicon link is a field of the latch, not found by XPath on each call.
- `window.updateFavicon` is not modelled as an entry point.
- The `addedNodes || []` fallback: a record always carries lists here.
- HTML tag and attribute case-insensitivity.
- A descendant combinator is matched only against ancestors inside the queried node. Ancestors above it are not part of the value.
- Added nodes are values. A fixed form is found again in the page by identity, not through a live reference; the page keeps identities distinct (`PageOk`), so the identity names one element.
- A missing `#repo-content-pjax-container`, which throws: the page constructor takes the target node.
- `classList` is a sequence that is not deduplicated.
- asana-auto-expand-subtasks.js is not part of this model.
- SingleComments.PullRequestPage.Observe: is the corrected callback, built on `ObservedForms`, which skips text nodes. The script as written throws on a batch with a text node among the added nodes and fixes nothing; that behaviour is `ObservedFormsAsWritten` (see Findings).
- SingleComments.FixEachFixesAll: speaks of the listed forms that were in the page before the pass. The script also fixes a form that has since been detached, through its reference to it; the model's state is the page only, so a form not found by identity is skipped and that fix is not represented.

## Findings

| source | as written | input that shows it | evidently intended | confidence | as-written member | corrected member |
|---|---|---|---|---|---|---|
| only-single-comments.js:46-47 | `added.querySelectorAll(...)` is called on every added node | a `childList` record whose added nodes are a `"\n"` text node followed by a thread `div` holding a `form.js-inline-comment-form`: the call on the text node throws, so no form is fixed | skip nodes without `querySelectorAll`, as `queryAll` in the two Asana scripts does, so the form is fixed | not executed | SingleComments.ObservedFormsAsWritten, SingleComments.TextNodeLosesForm | SingleComments.ObservedForms, SingleComments.TextNodesIgnored |

=== FILE: added_node_wait.dfy ===
/**
 * `waitForAddedNode(rootElement, targetSelector, timeoutMs)` of
 * asana-helpers-markdown.js: a promise for the first element matching a
 * selector, taken from the root if one is already there and otherwise from
 * the nodes added under the root, given up after a timeout that is checked
 * only when a batch of mutations arrives. The clock (`Date.now()`) is a
 * parameter.
 */
module AddedNodeWait {
  import opened Dom
  import opened Mutations
  import opened Observation

  /** The rejection reason after the timeout. */
  const TimeoutReason := "Observer wait timeout."

  /** A batch of mutation records and the clock reading when it arrives. */
  datatype Delivery = Delivery(batch: seq<Record>, now: int)

  /** The observer callback, on the batch `d`, for an observer started at
      time `start`. The timeout test comes first; then the first node of
      `queryAll(getAddedNodes(mutations), targetSelector)`, if any, settles
      the promise. */
  function Callback(target: Selector, timeoutMs: int, start: int, w: Watch, d: Delivery): (r: Watch)
    ensures r.connected ==> r == w
    ensures r != w ==> w.connected && !r.connected && r.installed == w.installed && r.disconnects == w.disconnects + 1
    ensures r != w && r.outcome.Rejected? ==> d.now - start > timeoutMs && r.outcome.reason == Some(TimeoutReason)
    ensures r != w && r.outcome.Resolved? ==>
      d.now - start <= timeoutMs && QueryAll(AddedNodes(d.batch), target) != [] &&
      r.outcome.node == QueryAll(AddedNodes(d.batch), target)[0]
    ensures w.connected && (d.now - start > timeoutMs || QueryAll(AddedNodes(d.batch), target) != []) ==> r != w
  {
    if !w.connected then w
    else if d.now - start > timeoutMs then
      Watch(Rejected(Some(TimeoutReason)), w.installed, false, w.disconnects + 1)
    else
      var found := QueryAll(AddedNodes(d.batch), target);
      if found != [] then Watch(Resolved(found[0]), w.installed, false, w.disconnects + 1)
      else w
  }

  /** The callback as a function of the watch and the batch alone. */
  function Observer(target: Selector, timeoutMs: int, start: int): (Watch, Delivery) -> Watch
  {
    (w, d) => Callback(target, timeoutMs, start, w, d)
  }

  /** The callback settles at most once and disconnects whenever it settles. */
  lemma ObserverIsCallback(target: Selector, timeoutMs: int, start: int)
    ensures IsCallback(Observer(target, timeoutMs, start))
  {
  }

  /** The timeout is tested before the added nodes: a late batch rejects
      the promise, whether or not it holds a matching node. */
  lemma TimeoutBeforeMatch(target: Selector, timeoutMs: int, start: int, w: Watch, d: Delivery)
    requires Wf(w) && w.connected && d.now - start > timeoutMs
    ensures Callback(target, timeoutMs, start, w, d) == Watch(Rejected(Some(TimeoutReason)), true, false, 1)
  {
  }

  /** Whatever the promise resolves with matches the selector. */
  predicate ResolvesWithMatch(w: Watch, target: Selector) {
    w.outcome.Resolved? ==> Matches(w.outcome.node, target)
  }

  lemma {:induction false} RunResolvesWithMatch(target: Selector, timeoutMs: int, start: int, w: Watch, ds: seq<Delivery>)
    requires ResolvesWithMatch(w, target)
    ensures ResolvesWithMatch(Run(Observer(target, timeoutMs, start), w, ds), target)
    decreases |ds|
  {
    if ds != [] {
      var w' := Callback(target, timeoutMs, start, w, ds[0]);
      assert ResolvesWithMatch(w', target);
      RunResolvesWithMatch(target, timeoutMs, start, w', ds[1..]);
    }
  }

  /** From the start, on any sequence of batches: the promise can only
      resolve with a node that matches the selector. */
  lemma ResolvedNodeMatches(root: Node, target: Selector, timeoutMs: int, start: int, ds: seq<Delivery>)
    ensures ResolvesWithMatch(Run(Observer(target, timeoutMs, start), Begin(root, target), ds), target)
  {
    RunResolvesWithMatch(target, timeoutMs, start, Begin(root, target), ds);
  }

  /** Batches that arrive in time but add no matching node leave the promise
      pending and the observer connected. */
  lemma {:induction false} WaitsThroughMisses(target: Selector, timeoutMs: int, start: int, w: Watch, ds: seq<Delivery>)
    requires Wf(w) && w.connected
    requires forall i :: 0 <= i < |ds| ==> ds[i].now - start <= timeoutMs
    requires forall i :: 0 <= i < |ds| ==> QueryAll(AddedNodes(ds[i].batch), target) == []
    ensures Run(Observer(target, timeoutMs, start), w, ds) == w
    decreases |ds|
  {
    if ds != [] {
      assert Callback(target, timeoutMs, start, w, ds[0]) == w;
      WaitsThroughMisses(target, timeoutMs, start, w, ds[1..]);
    }
  }

  /** The first in-time batch that adds a matching node resolves the
      promise with the first node `queryAll` finds and disconnects the
      observer, once, and nothing after it changes that. */
  lemma ResolvesAtFirstMatchingBatch(target: Selector, timeoutMs: int, start: int, w: Watch, ds: seq<Delivery>, k: nat)
    requires Wf(w) && w.connected && k < |ds|
    requires forall i :: 0 <= i <= k ==> ds[i].now - start <= timeoutMs
    requires forall i :: 0 <= i < k ==> QueryAll(AddedNodes(ds[i].batch), target) == []
    requires QueryAll(AddedNodes(ds[k].batch), target) != []
    ensures Run(Observer(target, timeoutMs, start), w, ds[..k]) == w
    ensures Run(Observer(target, timeoutMs, start), w, ds) ==
      Watch(Resolved(QueryAll(AddedNodes(ds[k].batch), target)[0]), true, false, 1)
  {
    WaitsThroughMisses(target, timeoutMs, start, w, ds[..k]);
    ResolvedPrefix(target, timeoutMs, start, w, ds, k);
    ObserverIsCallback(target, timeoutMs, start);
    SettlesOnce(Observer(target, timeoutMs, start), w, ds, k + 1);
  }

  /** Waiting through the first `k` batches, then the in-time batch `k`
      that adds a matching node settles the watch. */
  lemma ResolvedPrefix(target: Selector, timeoutMs: int, start: int, w: Watch, ds: seq<Delivery>, k: nat)
    requires Wf(w) && w.connected && k < |ds| && ds[k].now - start <= timeoutMs
    requires QueryAll(AddedNodes(ds[k].batch), target) != []
    requires Run(Observer(target, timeoutMs, start), w, ds[..k]) == w
    ensures Run(Observer(target, timeoutMs, start), w, ds[..k + 1]) ==
      Watch(Resolved(QueryAll(AddedNodes(ds[k].batch), target)[0]), true, false, 1)
  {
    var settled := ResolvingBatch(target, timeoutMs, start, w, ds[k]);
    assert ds[..k + 1] == ds[..k] + [ds[k]];
    RunAppend(Observer(target, timeoutMs, start), w, ds[..k], [ds[k]]);
  }

  /** One in-time batch that adds a matching node settles a waiting watch. */
  lemma ResolvingBatch(target: Selector, timeoutMs: int, start: int, w: Watch, d: Delivery) returns (settled: Watch)
    requires Wf(w) && w.connected && d.now - start <= timeoutMs
    requires QueryAll(AddedNodes(d.batch), target) != []
    ensures settled == Watch(Resolved(QueryAll(AddedNodes(d.batch), target)[0]), true, false, 1)
    ensures Run(Observer(target, timeoutMs, start), w, [d]) == settled
  {
    settled := Callback(target, timeoutMs, start, w, d);
    assert Run(Observer(target, timeoutMs, start), w, [d]) == Run(Observer(target, timeoutMs, start), settled, []);
  }

  /** The scenario of an empty container that first receives an unrelated
      child and then a child with the wanted class. */
  const EmptyContainer := Element(0, "div", [], map[], [])
  const Unrelated := Element(1, "div", [], map[], [])
  const Wanted := Element(2, "div", ["X"], map[], [])

  lemma NoMatchIn(n: Node, target: Selector)
    requires n.Element? && n.children == [] && !target(n)
    ensures QueryAll([n], target) == []
  {
    assert [n][1..] == [];
    assert Descendants(n) == [];
    assert Filter([n], target) == [];
    assert QueryEach([n], target) == QuerySelectorAll(n, target) + QueryEach([], target);
  }

  /** Exactly one resolution, with the second child, and exactly one
      disconnect. */
  lemma UnrelatedThenWanted(timeoutMs: int, start: int)
    requires timeoutMs >= 0
    ensures Begin(EmptyContainer, ClassSelector("X")).outcome.Pending?
    ensures Run(Observer(ClassSelector("X"), timeoutMs, start), Begin(EmptyContainer, ClassSelector("X")),
                [Delivery([Record(ChildList, [Unrelated], [])], start),
                 Delivery([Record(ChildList, [Wanted], [])], start)])
            == Watch(Resolved(Wanted), true, false, 1)
  {
    var target := ClassSelector("X");
    var ds := [Delivery([Record(ChildList, [Unrelated], [])], start),
               Delivery([Record(ChildList, [Wanted], [])], start)];
    assert Descendants(EmptyContainer) == [];
    assert QuerySelector(EmptyContainer, target).None?;
    var w := Begin(EmptyContainer, target);
    assert AddedNodes(ds[0].batch) == [Unrelated] by {
      assert ds[0].batch[1..] == [];
    }
    NoMatchIn(Unrelated, target);
    assert AddedNodes(ds[1].batch) == [Wanted] by {
      assert ds[1].batch[1..] == [];
    }
    SelfMatchFirst([Wanted], target, 0);
    ResolvesAtFirstMatchingBatch(target, timeoutMs, start, w, ds, 1);
  }

  /** The promise returned by `waitForAddedNode`, with its observer. */
  class AddedNodeWatcher {
    const target: Selector
    const timeoutMs: int
    /** `Date.now()` when the observer was created. */
    const start: int
    var outcome: Outcome
    var installed: bool
    var connected: bool
    var disconnects: nat

    function State(): Watch
      reads this
    {
      Watch(outcome, installed, connected, disconnects)
    }

    ghost predicate Valid()
      reads this
    {
      Wf(State())
    }

    /** `waitForAddedNode(root, target, timeoutMs)`, called at time `now`. */
    constructor (root: Node, target: Selector, timeoutMs: int, now: int)
      ensures Valid()
      ensures State() == Begin(root, target)
      ensures this.target == target && this.timeoutMs == timeoutMs && start == now
    {
      this.target := target;
      this.timeoutMs := timeoutMs;
      start := now;
      disconnects := 0;
      var preexisting := QuerySelector(root, target);
      if preexisting.Some? {
        outcome, installed, connected := Resolved(preexisting.value), false, false;
      } else {
        outcome, installed, connected := Pending, true, true;
      }
    }

    /** The browser delivers the mutation records of `batch` at time `now`;
        once the observer is disconnected the callback no longer runs. */
    method OnMutations(batch: seq<Record>, now: int)
      requires Valid()
      modifies this
      ensures Valid()
      ensures State() == Callback(target, timeoutMs, start, old(State()), Delivery(batch, now))
    {
      if !connected {
        return;
      }
      if now - start > timeoutMs {
        connected, disconnects := false, disconnects + 1;
        outcome := Rejected(Some(TimeoutReason));
        return;
      }
      var found := QueryAll(AddedNodes(batch), target);
      if found != [] {
        connected, disconnects := false, disconnects + 1;
        outcome := Resolved(found[0]);
      }
    }
  }
}

=== FILE: asana_helpers.dfy ===
/**
 * The page logic of asana-helpers-markdown.js: the editor lookup used by
 * the Markdown paste handler, the theme switch, the task description's
 * read-only toggle and its buttons, and the task link and Markdown link
 * built by the link button.
 */
module AsanaHelpers {
  import opened Dom

  // ---- getEditor -------------------------------------------------------------

  const EditorClass := "ProsemirrorEditor"

  /** Some class of the list starts with `ProsemirrorEditor`. */
  predicate HasEditorPrefix(classes: seq<string>) {
    exists c :: c in classes && StartsWith(c, EditorClass)
  }

  /** `getEditor(element)`, where `chain[0]` is the class list of `element`
      and `chain[i + 1]` that of the parent of the element of `chain[i]`, up
      to the last element that has a parent element. The result is the
      position in `chain` of the editor, or None for null. */
  method GetEditor(chain: seq<seq<string>>) returns (editor: Option<nat>)
    requires |chain| > 0
    ensures !HasEditorPrefix(chain[0]) ==> editor.None?
    ensures HasEditorPrefix(chain[0]) ==>
      (editor.Some? <==> exists i :: 0 <= i < |chain| && EditorClass in chain[i])
    ensures editor.Some? ==>
      editor.value < |chain| && EditorClass in chain[editor.value] &&
      forall j :: 0 <= j < editor.value ==> EditorClass !in chain[j]
  {
    var classes := chain[0];
    var isEditor := false;
    var i := 0;
    while i < |classes|
      invariant 0 <= i <= |classes|
      invariant forall j :: 0 <= j < i ==> !StartsWith(classes[j], EditorClass)
    {
      if StartsWith(classes[i], EditorClass) {
        isEditor := true;
        break;
      }
      i := i + 1;
    }
    if !isEditor {
      return None;
    }
    var k := 0;
    while k < |chain| && EditorClass !in chain[k]
      invariant 0 <= k <= |chain|
      invariant forall j :: 0 <= j < k ==> EditorClass !in chain[j]
    {
      k := k + 1;
    }
    editor := if k < |chain| then Some(k) else None;
  }

  // ---- Markdown paste --------------------------------------------------------

  /** The guard of the capturing `paste` listener: the paste is converted
      from Markdown only inside an editor, for an event the script did not
      dispatch itself, that carries plain text and no HTML. */
  predicate ConvertsPaste(inEditor: bool, isMarkdownFormatEvent: bool, types: set<string>): (r: bool)
    ensures r ==> inEditor && "text/plain" in types
    ensures isMarkdownFormatEvent ==> !r
    ensures "text/html" in types ==> !r
    ensures inEditor && !isMarkdownFormatEvent && "text/plain" in types && "text/html" !in types ==> r
  {
    inEditor && !isMarkdownFormatEvent && "text/plain" in types && "text/html" !in types
  }

  /** The event the listener dispatches with the converted HTML is let
      through to the editor, so the listener never converts its own paste
      again; a paste that already carries HTML is also let through. */
  lemma RedispatchedPasteIsLetThrough(inEditor: bool, types: set<string>, flag: bool)
    ensures !ConvertsPaste(inEditor, true, {"text/html"})
    ensures "text/html" in types ==> !ConvertsPaste(inEditor, flag, types)
    ensures ConvertsPaste(true, false, {"text/plain"})
  {
  }

  // ---- switchTheme -----------------------------------------------------------

  const DarkMode := "DesignTokenThemeSelectors-theme--darkMode"
  const LightMode := "DesignTokenThemeSelectors-theme--lightMode"
  const SystemDarkMode := "DesignTokenThemeSelectors-theme--systemDarkMode"
  const SystemLightMode := "DesignTokenThemeSelectors-theme--systemLightMode"

  predicate IsTheme(c: string) {
    c == DarkMode || c == LightMode || c == SystemDarkMode || c == SystemLightMode
  }

  /** The theme `switchTheme` moves to: light from a dark theme, explicit
      or from the system, and dark from anything else. */
  function ThemeTarget(classes: seq<string>): (t: string)
    ensures t == LightMode <==> DarkMode in classes || SystemDarkMode in classes
    ensures t == DarkMode <==> !(DarkMode in classes || SystemDarkMode in classes)
  {
    if DarkMode in classes || SystemDarkMode in classes then LightMode else DarkMode
  }

  /** The body's classes after `switchTheme`: the four theme classes
      removed, then the target added. Exactly one theme class is left, and
      every other class is present exactly when it was before. */
  function SwitchedTheme(classes: seq<string>): (r: seq<string>)
    ensures ThemeTarget(classes) in r
    ensures forall c :: IsTheme(c) && c != ThemeTarget(classes) ==> c !in r
    ensures forall c :: !IsTheme(c) ==> (c in r <==> c in classes)
  {
    var cleared := RemoveToken(RemoveToken(RemoveToken(RemoveToken(classes,
      SystemDarkMode), SystemLightMode), DarkMode), LightMode);
    AddToken(cleared, ThemeTarget(classes))
  }

  /** Each switch moves to the other theme, so two switches come back. */
  lemma ThemeAlternates(classes: seq<string>)
    ensures ThemeTarget(SwitchedTheme(classes)) != ThemeTarget(classes)
    ensures ThemeTarget(SwitchedTheme(SwitchedTheme(classes))) == ThemeTarget(classes)
  {
  }

  // ---- Read-only mode --------------------------------------------------------

  const ContentEditable := "contenteditable"
  /** 📝 and 📖 */
  const EditableIcon := "\U{1F4DD}"
  const ReadOnlyIcon := "\U{1F4D6}"
  const Pressed := "SubtleIconToggleButton--isPressed"
  const NotPressed := "SubtleIconToggleButton--isNotPressed"

  /** `taskEditor.getAttribute('contenteditable') === 'true'` */
  predicate IsEditable(attrs: map<string, string>) {
    ContentEditable in attrs && attrs[ContentEditable] == "true"
  }

  /** The editor's attributes after `toggleReadOnly`: `contenteditable` is
      set to the string of the negation, every other attribute is kept. */
  function Toggled(attrs: map<string, string>): (r: map<string, string>)
    ensures IsEditable(r) == !IsEditable(attrs)
    ensures ContentEditable in r && (r[ContentEditable] == "true" || r[ContentEditable] == "false")
    ensures forall a :: a != ContentEditable ==> (a in r <==> a in attrs)
    ensures forall a :: a != ContentEditable && a in attrs ==> r[a] == attrs[a]
  {
    attrs[ContentEditable := if IsEditable(attrs) then "false" else "true"]
  }

  /** Toggling twice gives back the editability it started with. */
  lemma ToggleTwice(attrs: map<string, string>)
    ensures IsEditable(Toggled(Toggled(attrs))) == IsEditable(attrs)
    ensures Toggled(Toggled(Toggled(attrs))) == Toggled(attrs)
  {
  }

  /** A read-only button: its `innerHTML` and its class list. */
  datatype ReadOnlyButton = ReadOnlyButton(icon: string, classes: seq<string>)

  /** How `refreshReadOnlyState` shows a button: the pencil and only
      `isNotPressed` when the editor is editable, the book and only
      `isPressed` otherwise; the other classes stay as they were. */
  function Shown(b: ReadOnlyButton, editable: bool): (r: ReadOnlyButton)
    ensures r.icon == EditableIcon <==> editable
    ensures r.icon == ReadOnlyIcon <==> !editable
    ensures (Pressed in r.classes) == !editable
    ensures (NotPressed in r.classes) == editable
    ensures forall c :: c != Pressed && c != NotPressed ==> (c in r.classes <==> c in b.classes)
  {
    ReadOnlyButton(if editable then EditableIcon else ReadOnlyIcon,
      ToggleToken(ToggleToken(b.classes, Pressed, !editable), NotPressed, editable))
  }

  /** Refreshing a button that already shows the state changes nothing. */
  lemma ShownIdempotent(b: ReadOnlyButton, editable: bool)
    ensures Shown(Shown(b, editable), editable) == Shown(b, editable)
  {
  }

  /** A button shows the editability `editable`. */
  predicate Shows(b: ReadOnlyButton, editable: bool) {
    && b.icon == (if editable then EditableIcon else ReadOnlyIcon)
    && (Pressed in b.classes) == !editable
    && (NotPressed in b.classes) == editable
  }

  /** The parts of the Asana page that the theme switch and the read-only
      toggle change. */
  class AsanaPage {
    /** `document.body.classList` */
    var bodyClasses: seq<string>
    /** The attributes of `#TaskDescription .ProseMirror`, or None when the
        page has no task description editor. */
    var editor: Option<map<string, string>>
    /** The `.__readonly` buttons, in document order. */
    const readOnlyButtons: array<ReadOnlyButton>

    constructor (bodyClasses: seq<string>, editor: Option<map<string, string>>, buttons: seq<ReadOnlyButton>)
      ensures this.bodyClasses == bodyClasses && this.editor == editor
      ensures readOnlyButtons[..] == buttons && fresh(readOnlyButtons)
    {
      this.bodyClasses := bodyClasses;
      this.editor := editor;
      readOnlyButtons := new ReadOnlyButton[|buttons|](i requires 0 <= i < |buttons| => buttons[i]);
    }

    /** Every button shows the editor's state. */
    ghost predicate Displayed()
      reads this, readOnlyButtons
    {
      editor.Some? ==>
        forall i :: 0 <= i < readOnlyButtons.Length ==> Shows(readOnlyButtons[i], IsEditable(editor.value))
    }

    /** `switchTheme()`, on the body's classes only. */
    method SwitchTheme()
      modifies this`bodyClasses
      ensures bodyClasses == SwitchedTheme(old(bodyClasses))
    {
      var target := if DarkMode in bodyClasses || SystemDarkMode in bodyClasses then LightMode else DarkMode;
      bodyClasses := RemoveToken(bodyClasses, SystemDarkMode);
      bodyClasses := RemoveToken(bodyClasses, SystemLightMode);
      bodyClasses := RemoveToken(bodyClasses, DarkMode);
      bodyClasses := RemoveToken(bodyClasses, LightMode);
      bodyClasses := AddToken(bodyClasses, target);
    }

    /** `refreshReadOnlyState(taskEditor)` for an editor with attributes
        `editorAttrs`: each read-only button, in turn, gets the icon and the
        pressed state of the editor. */
    method RefreshReadOnlyState(editorAttrs: map<string, string>)
      modifies readOnlyButtons
      ensures forall i :: 0 <= i < readOnlyButtons.Length ==>
        readOnlyButtons[i] == Shown(old(readOnlyButtons[i]), IsEditable(editorAttrs))
      ensures forall i :: 0 <= i < readOnlyButtons.Length ==> Shows(readOnlyButtons[i], IsEditable(editorAttrs))
    {
      var editable := ContentEditable in editorAttrs && editorAttrs[ContentEditable] == "true";
      for i := 0 to readOnlyButtons.Length
        invariant forall j :: 0 <= j < i ==> readOnlyButtons[j] == Shown(old(readOnlyButtons[j]), editable)
        invariant forall j :: i <= j < readOnlyButtons.Length ==> readOnlyButtons[j] == old(readOnlyButtons[j])
      {
        var b := readOnlyButtons[i];
        var classes := ToggleToken(b.classes, Pressed, !editable);
        classes := ToggleToken(classes, NotPressed, editable);
        readOnlyButtons[i] := ReadOnlyButton(if editable then EditableIcon else ReadOnlyIcon, classes);
      }
    }

    /** `toggleReadOnly()`: flips the editor's `contenteditable` and
        refreshes the buttons; without an editor it throws (`threw`) before
        changing anything. */
    method ToggleReadOnly() returns (threw: bool)
      modifies this`editor, readOnlyButtons
      ensures threw <==> old(editor).None?
      ensures threw ==> editor == old(editor) && unchanged(readOnlyButtons)
      ensures !threw ==> editor == Some(Toggled(old(editor).value))
      ensures !threw ==> forall i :: 0 <= i < readOnlyButtons.Length ==>
        readOnlyButtons[i] == Shown(old(readOnlyButtons[i]), !IsEditable(old(editor).value))
      ensures !threw ==> Displayed()
    {
      if editor.None? {
        return true;
      }
      threw := false;
      var attrs := editor.value;
      var editable := ContentEditable in attrs && attrs[ContentEditable] == "true";
      editor := Some(attrs[ContentEditable := if editable then "false" else "true"]);
      RefreshReadOnlyState(editor.value);
    }
  }

  // ---- Task link and Markdown link -------------------------------------------

  const TaskUrlPrefix := "https://app.asana.com/0/0/"
  const TaskUrlSuffix := "/f"

  /** The link of the task with id `id`. */
  function TaskUrl(id: string): (url: string)
    ensures |url| == |TaskUrlPrefix| + |id| + |TaskUrlSuffix|
    ensures url[..|TaskUrlPrefix|] == TaskUrlPrefix && url[|url| - |TaskUrlSuffix|..] == TaskUrlSuffix
    ensures url[|TaskUrlPrefix|..|url| - |TaskUrlSuffix|] == id
  {
    TaskUrlPrefix + id + TaskUrlSuffix
  }

  /** The task id in a task link, or None for any other string. */
  function TaskIdOf(url: string): Option<string> {
    if |url| >= |TaskUrlPrefix| + |TaskUrlSuffix|
      && url[..|TaskUrlPrefix|] == TaskUrlPrefix
      && url[|url| - |TaskUrlSuffix|..] == TaskUrlSuffix
    then Some(url[|TaskUrlPrefix|..|url| - |TaskUrlSuffix|])
    else None
  }

  /** The task id is recovered from the link built for it ... */
  lemma TaskIdRoundTrip(id: string)
    ensures TaskIdOf(TaskUrl(id)) == Some(id)
  {
    var u := TaskUrl(id);
    assert u[..|TaskUrlPrefix|] == TaskUrlPrefix;
    assert u[|u| - |TaskUrlSuffix|..] == TaskUrlSuffix;
    assert u[|TaskUrlPrefix|..|u| - |TaskUrlSuffix|] == id;
  }

  /** ... and every task link is the one built for its id. */
  lemma TaskUrlRoundTrip(url: string)
    requires TaskIdOf(url).Some?
    ensures TaskUrl(TaskIdOf(url).value) == url
  {
    var id := TaskIdOf(url).value;
    assert url == url[..|TaskUrlPrefix|] + id + url[|url| - |TaskUrlSuffix|..];
  }

  /** `.TaskPane[data-task-id]` */
  const TaskPaneWithId: Selector :=
    (n: Node) => n.Element? && "TaskPane" in n.classes && "data-task-id" in n.attrs

  /** `.ConversationPane .ConversationTitleAndContext-title a[href]` */
  const ConversationLink: seq<Selector> := [
    ClassSelector("ConversationPane"),
    ClassSelector("ConversationTitleAndContext-title"),
    (n: Node) => n.Element? && n.tag == "a" && "href" in n.attrs
  ]

  /** Where `getCurrentTaskUrlFromPage` takes the link from: the page, or
      Asana's "Copy link" button and the clipboard. */
  datatype UrlSource = PageUrl(href: string) | CopyLinkButton

  /** `getCurrentTaskUrlFromPage()` on the document `doc`: the link of the
      open task pane, else the `href` of the conversation title link, else
      the "Copy link" fallback. */
  function TaskUrlFromPage(doc: Node): (r: UrlSource)
    ensures r.CopyLinkButton? <==>
      (forall x :: x in Descendants(doc) ==> !Matches(x, TaskPaneWithId)) && QueryChain(doc, ConversationLink) == []
  {
    match QuerySelector(doc, TaskPaneWithId)
    case Some(pane) => PageUrl(TaskUrl(pane.attrs["data-task-id"]))
    case None =>
      match QueryChainFirst(doc, ConversationLink)
      case Some(link) => PageUrl(link.attrs["href"])
      case None => CopyLinkButton
  }

  /** A task pane with a task id wins over a conversation link: the link is
      the task link of the first such pane. */
  lemma TaskPaneFirst(doc: Node, pane: Node)
    requires QuerySelector(doc, TaskPaneWithId) == Some(pane)
    ensures pane in Descendants(doc) && "TaskPane" in pane.classes
    ensures TaskUrlFromPage(doc) == PageUrl(TaskUrl(pane.attrs["data-task-id"]))
    ensures TaskIdOf(TaskUrlFromPage(doc).href) == Some(pane.attrs["data-task-id"])
  {
    TaskIdRoundTrip(pane.attrs["data-task-id"]);
  }

  /** Without a task pane, the first conversation title link gives the link. */
  lemma ConversationLinkSecond(doc: Node, link: Node)
    requires QuerySelector(doc, TaskPaneWithId).None?
    requires QueryChainFirst(doc, ConversationLink) == Some(link)
    ensures link in Descendants(doc) && link.tag == "a"
    ensures TaskUrlFromPage(doc) == PageUrl(link.attrs["href"])
  {
  }

  /** `[title](href)` */
  function MarkdownLink(title: string, href: string): (r: string)
    ensures |r| == |title| + |href| + 4
    ensures r[0] == '[' && r[|title| + 1..|title| + 3] == "](" && r[|r| - 1] == ')'
    ensures r[1..|title| + 1] == title && r[|title| + 3..|r| - 1] == href
  {
    "[" + title + "](" + href + ")"
  }

  /** What a click on the link button does with the link `href`. */
  datatype LinkAction = OpenTab(url: string) | CopyMarkdown(text: string)

  /** `getMDLink(ev)` once the link is known: any of Meta, Ctrl or Alt, or a
      middle click, opens the link in a new tab; any other click copies the
      Markdown link to the task title `title`. */
  function LinkClick(metaKey: bool, ctrlKey: bool, altKey: bool, button: int, href: string, title: string): (r: LinkAction)
    ensures r.OpenTab? <==> metaKey || ctrlKey || altKey || button == 1
    ensures r.OpenTab? ==> r.url == href
    ensures r.CopyMarkdown? ==> r.text == MarkdownLink(title, href)
  {
    if metaKey || ctrlKey || altKey || button == 1 then OpenTab(href)
    else CopyMarkdown(MarkdownLink(title, href))
  }
}

=== FILE: dom.dfy ===
/**
 * The part of the browser's DOM that the userscripts read and write, as a
 * value tree: elements with a tag, an ordered class list, attributes and
 * children, and character data (text) nodes, which have neither `matches`
 * nor `querySelectorAll`.
 */
module Dom {

  datatype Option<+T> = None | Some(value: T)

  /** A node of the document. `uid` is the node's identity, what a DOM
      reference points to; the HTML `id` attribute, when there is one, is an
      entry of `attrs`. */
  datatype Node =
    | Element(uid: nat, tag: string, classes: seq<string>, attrs: map<string, string>, children: seq<Node>)
    | Text(uid: nat, data: string)

  /** A CSS selector, known only through the elements it accepts. */
  type Selector = Node -> bool

  /** `node.matches(selector)`; a node without `matches` never matches. */
  predicate Matches(n: Node, sel: Selector) {
    n.Element? && sel(n)
  }

  /** The selector `.c` */
  function ClassSelector(c: string): Selector {
    (n: Node) => n.Element? && c in n.classes
  }

  /** The selector `#v` */
  function IdSelector(v: string): Selector {
    (n: Node) => n.Element? && "id" in n.attrs && n.attrs["id"] == v
  }

  /** The element `n` itself (when it is one) and all its element descendants,
      in document order. */
  function Subtree(n: Node): (r: seq<Node>)
    ensures forall x :: x in r ==> x.Element?
    ensures n.Element? ==> r != [] && r[0] == n
  {
    match n
    case Text(_, _) => []
    case Element(_, _, _, _, children) => [n] + Forest(children)
  }

  /** The elements of a list of sibling subtrees, in document order. */
  function Forest(ns: seq<Node>): (r: seq<Node>)
    ensures forall x :: x in r ==> x.Element?
  {
    if ns == [] then [] else Subtree(ns[0]) + Forest(ns[1..])
  }

  /** The element descendants of `n`, not `n` itself, in document order. */
  function Descendants(n: Node): (r: seq<Node>)
    ensures forall x :: x in r ==> x.Element?
    ensures n.Text? ==> r == []
  {
    if n.Element? then Forest(n.children) else []
  }

  /** The preorder of a leading sibling and the rest. */
  lemma ForestCons(x: Node, ns: seq<Node>)
    ensures Forest([x] + ns) == Subtree(x) + Forest(ns)
  {
    assert ([x] + ns)[0] == x;
    assert ([x] + ns)[1..] == ns;
  }

  /** A descendant of a descendant is a descendant: the subtree of any
      element of the subtree of `n` lies inside it. */
  lemma {:induction false} SubtreeClosed(n: Node, x: Node)
    requires x in Subtree(n)
    ensures forall y :: y in Subtree(x) ==> y in Subtree(n)
    decreases n, 1
  {
    match n
    case Element(_, _, _, _, children) =>
      if x != n {
        ForestClosed(children, x);
      }
  }

  lemma {:induction false} ForestClosed(ns: seq<Node>, x: Node)
    requires x in Forest(ns)
    ensures forall y :: y in Subtree(x) ==> y in Forest(ns)
    decreases ns, 0
  {
    if x in Subtree(ns[0]) {
      SubtreeClosed(ns[0], x);
    } else {
      ForestClosed(ns[1..], x);
    }
  }

  /** `Array.prototype.filter` with `matches`: the matching nodes of `s`,
      in their order in `s`. */
  function Filter(s: seq<Node>, sel: Selector): (r: seq<Node>)
    ensures |r| <= |s|
    ensures forall x :: x in r <==> x in s && Matches(x, sel)
  {
    if s == [] then []
    else (if Matches(s[0], sel) then [s[0]] else []) + Filter(s[1..], sel)
  }

  lemma {:induction false} FilterAppend(a: seq<Node>, b: seq<Node>, sel: Selector)
    ensures Filter(a + b, sel) == Filter(a, sel) + Filter(b, sel)
  {
    if a == [] {
      assert a + b == b;
    } else {
      assert (a + b)[0] == a[0];
      assert (a + b)[1..] == a[1..] + b;
      FilterAppend(a[1..], b, sel);
    }
  }

  /** The first node of `s` that matches is the first element of the filter. */
  lemma {:induction false} FilterFirst(s: seq<Node>, sel: Selector, i: nat)
    requires i < |s| && Matches(s[i], sel)
    requires forall j :: 0 <= j < i ==> !Matches(s[j], sel)
    ensures Filter(s, sel) != [] && Filter(s, sel)[0] == s[i]
  {
    if i > 0 {
      FilterFirst(s[1..], sel, i - 1);
    }
  }

  /** `x` is the first node of `s` that matches `sel`. */
  predicate IsFirstMatch(s: seq<Node>, sel: Selector, x: Node) {
    exists i :: 0 <= i < |s| && s[i] == x && Matches(x, sel) && forall j :: 0 <= j < i ==> !Matches(s[j], sel)
  }

  /** The head of a filter is the first node that matches. */
  lemma {:induction false} FilterHeadIsFirst(s: seq<Node>, sel: Selector)
    requires Filter(s, sel) != []
    ensures IsFirstMatch(s, sel, Filter(s, sel)[0])
  {
    if Matches(s[0], sel) {
      assert s[0] == Filter(s, sel)[0];
    } else {
      FilterHeadIsFirst(s[1..], sel);
      var i :| 0 <= i < |s[1..]| && s[1..][i] == Filter(s, sel)[0] && Matches(s[1..][i], sel)
        && forall j :: 0 <= j < i ==> !Matches(s[1..][j], sel);
      forall j | 0 <= j < i + 1
        ensures !Matches(s[j], sel)
      {
        if j > 0 {
          assert s[j] == s[1..][j - 1];
        }
      }
      assert s[i + 1] == s[1..][i];
    }
  }

  /** `n.querySelectorAll(selector)`: the matching descendants, in document order. */
  function QuerySelectorAll(n: Node, sel: Selector): (r: seq<Node>)
    ensures forall x :: x in r <==> x in Descendants(n) && Matches(x, sel)
  {
    Filter(Descendants(n), sel)
  }

  /** `n.querySelector(selector)`: the first matching descendant in document
      order, or null. */
  function QuerySelector(n: Node, sel: Selector): (r: Option<Node>)
    ensures r.None? <==> forall x :: x in Descendants(n) ==> !Matches(x, sel)
    ensures r.Some? ==> r.value in Descendants(n) && Matches(r.value, sel)
    ensures r.Some? ==> IsFirstMatch(Descendants(n), sel, r.value)
    ensures r.Some? ==> QuerySelectorAll(n, sel) != [] && r.value == QuerySelectorAll(n, sel)[0]
  {
    var all := QuerySelectorAll(n, sel);
    if all == [] then None
    else
      assert all[0] in all;
      FilterHeadIsFirst(Descendants(n), sel);
      Some(all[0])
  }

  // ---- Descendant combinators (`A B C`) ---------------------------------------

  /** How many selectors of the chain are matched by `n` and its ancestors,
      when its ancestors matched the first `k`: the next selector is taken
      by `n` when it matches and the last one is still ahead. */
  function Advance(n: Node, sels: seq<Selector>, k: nat): (k': nat)
    requires k < |sels|
    ensures k <= k' < |sels|
  {
    if k < |sels| - 1 && Matches(n, sels[k]) then k + 1 else k
  }

  /** The elements of the subtree of `n`, in document order, that match the
      selector list `sels` joined by descendant combinators, when the
      ancestors of `n` already matched the first `k` selectors. */
  function ChainSubtree(n: Node, sels: seq<Selector>, k: nat): (r: seq<Node>)
    requires k < |sels|
    ensures forall x :: x in r ==> x in Subtree(n) && Matches(x, sels[|sels| - 1])
  {
    match n
    case Text(_, _) => []
    case Element(_, _, _, _, children) =>
      (if k == |sels| - 1 && Matches(n, sels[k]) then [n] else []) + ChainForest(children, sels, Advance(n, sels, k))
  }

  function ChainForest(ns: seq<Node>, sels: seq<Selector>, k: nat): (r: seq<Node>)
    requires k < |sels|
    ensures forall x :: x in r ==> x in Forest(ns) && Matches(x, sels[|sels| - 1])
  {
    if ns == [] then [] else ChainSubtree(ns[0], sels, k) + ChainForest(ns[1..], sels, k)
  }

  /** `n.querySelectorAll("A B … Z")`: the descendants of `n` matching the
      chain, `n` itself counting as an ancestor (the ancestors above `n` are
      not part of the value and do not count). */
  function QueryChain(n: Node, sels: seq<Selector>): (r: seq<Node>)
    requires |sels| > 0
    ensures forall x :: x in r ==> x in Descendants(n) && Matches(x, sels[|sels| - 1])
    ensures forall x :: x in r <==> ChainMatch(n, sels, x)
    ensures IsSubsequence(r, Descendants(n))
  {
    if n.Element? then
      ChildrenChainMatch(n, sels);
      ChainForestInOrder(n.children, sels, Advance(n, sels, 0));
      ChainForest(n.children, sels, Advance(n, sels, 0))
    else
      NoPathFromText(n, sels);
      []
  }

  /** `n.querySelector("A B … Z")` */
  function QueryChainFirst(n: Node, sels: seq<Selector>): (r: Option<Node>)
    requires |sels| > 0
    ensures r.None? <==> QueryChain(n, sels) == []
    ensures r.None? <==> forall x :: !ChainMatch(n, sels, x)
    ensures r.Some? ==> r.value in Descendants(n) && Matches(r.value, sels[|sels| - 1])
    ensures r.Some? ==> ChainMatch(n, sels, r.value) && r.value == QueryChain(n, sels)[0]
    ensures r.Some? && Distinct(Descendants(n)) ==> FirstChainMatch(n, sels, r.value)
  {
    var all := QueryChain(n, sels);
    if all == [] then None
    else
      assert all[0] in all;
      QueryChainHeadIsFirst(n, sels);
      Some(all[0])
  }

  // ---- What a descendant combinator means -------------------------------------

  /** `p` is a downward path of elements, each a child of the one before,
      whose last element is the parent of `x`. */
  predicate IsPath(p: seq<Node>, x: Node) {
    && p != []
    && (forall i :: 0 <= i < |p| - 1 ==> p[i].Element? && p[i + 1] in p[i].children)
    && p[|p| - 1].Element? && x in p[|p| - 1].children
  }

  /** The selectors `ss` are matched, in order, by entries of `p` taken in order. */
  predicate Embeds(p: seq<Node>, ss: seq<Selector>)
    decreases |p|
  {
    if ss == [] then true
    else if p == [] then false
    else (Matches(p[0], ss[0]) && Embeds(p[1..], ss[1..])) || Embeds(p[1..], ss)
  }

  /** `x` is selected by `A B … Z` below `n`: `x` matches `Z`, and `A`, `B`, …
      are matched in order by elements on the path from `n` down to the
      parent of `x`. */
  ghost predicate ChainMatch(n: Node, sels: seq<Selector>, x: Node)
    requires |sels| > 0
  {
    && Matches(x, sels[|sels| - 1])
    && exists p :: IsPath(p, x) && p[0] == n && Embeds(p, sels[..|sels| - 1])
  }

  /** `Advance` applied along the path `p`. */
  function Progress(p: seq<Node>, sels: seq<Selector>, k: nat): (k': nat)
    requires k < |sels|
    ensures k <= k' < |sels|
    decreases |p|
  {
    if p == [] then k else Progress(p[1..], sels, Advance(p[0], sels, k))
  }

  lemma {:induction false} EmbedsTail(p: seq<Node>, ss: seq<Selector>)
    requires ss != [] && Embeds(p, ss)
    ensures Embeds(p, ss[1..])
    decreases |p|
  {
    if p != [] && ss[1..] != [] && Embeds(p[1..], ss) {
      EmbedsTail(p[1..], ss);
    }
  }

  /** Taking each selector at the first element that matches it is enough:
      the greedy progress reaches the last selector exactly when the path
      embeds the remaining ones. */
  lemma {:induction false} ProgressEmbeds(p: seq<Node>, sels: seq<Selector>, k: nat)
    requires k < |sels|
    ensures Progress(p, sels, k) == |sels| - 1 <==> Embeds(p, sels[k..|sels| - 1])
    decreases |p|
  {
    var last := |sels| - 1;
    if p != [] {
      ProgressEmbeds(p[1..], sels, Advance(p[0], sels, k));
      if k < last {
        var ss := sels[k..last];
        assert ss[0] == sels[k] && ss[1..] == sels[k + 1..last];
        if Matches(p[0], sels[k]) && Embeds(p[1..], ss) {
          EmbedsTail(p[1..], ss);
        }
      } else {
        assert sels[k..last] == [];
      }
    } else if k == last {
      assert sels[k..last] == [];
    } else {
      assert |sels[k..last]| > 0;
    }
  }

  lemma {:induction false} ChainForestMembers(ns: seq<Node>, sels: seq<Selector>, k: nat, x: Node)
    requires k < |sels|
    ensures x in ChainForest(ns, sels, k) <==> exists i :: 0 <= i < |ns| && x in ChainSubtree(ns[i], sels, k)
    decreases |ns|
  {
    if ns != [] {
      ChainForestMembers(ns[1..], sels, k, x);
      if x in ChainForest(ns[1..], sels, k) {
        var j :| 0 <= j < |ns[1..]| && x in ChainSubtree(ns[1..][j], sels, k);
        assert ns[1..][j] == ns[j + 1];
      }
      if exists i :: 0 <= i < |ns| && x in ChainSubtree(ns[i], sels, k) {
        var i :| 0 <= i < |ns| && x in ChainSubtree(ns[i], sels, k);
        if i > 0 {
          assert ns[i] == ns[1..][i - 1];
        }
      }
    }
  }

  /** The members of `ChainSubtree(m, sels, k)`: `m` itself when it completes
      the chain, and the elements below `m` matching the last selector whose
      path from `m` takes the chain from `k` to its last selector. */
  lemma {:induction false} ChainSubtreeMembers(m: Node, sels: seq<Selector>, k: nat, x: Node)
    requires k < |sels|
    ensures x in ChainSubtree(m, sels, k) <==>
      (x == m && k == |sels| - 1 && Matches(m, sels[k])) ||
      (Matches(x, sels[|sels| - 1]) && exists p :: IsPath(p, x) && p[0] == m && Progress(p, sels, k) == |sels| - 1)
    decreases m, 2
  {
    match m {
      case Text(_, _) =>
        forall p: seq<Node> | IsPath(p, x)
          ensures p[0] != m
        {
          if |p| > 1 {
            assert p[0].Element?;
          }
        }
      case Element(_, _, _, _, _) =>
        ChildrenMembers(m, sels, k, x);
    }
  }

  lemma {:induction false} ChildrenMembers(m: Node, sels: seq<Selector>, k: nat, x: Node)
    requires m.Element? && k < |sels|
    ensures x in ChainForest(m.children, sels, Advance(m, sels, k)) <==>
      Matches(x, sels[|sels| - 1]) && exists p :: IsPath(p, x) && p[0] == m && Progress(p, sels, k) == |sels| - 1
    decreases m, 1
  {
    if x in ChainForest(m.children, sels, Advance(m, sels, k)) {
      ChildrenSound(m, sels, k, x);
    }
    if Matches(x, sels[|sels| - 1]) && exists p :: IsPath(p, x) && p[0] == m && Progress(p, sels, k) == |sels| - 1 {
      ChildrenComplete(m, sels, k, x);
    }
  }

  lemma {:induction false} ChildrenSound(m: Node, sels: seq<Selector>, k: nat, x: Node)
    requires m.Element? && k < |sels|
    requires x in ChainForest(m.children, sels, Advance(m, sels, k))
    ensures exists p :: IsPath(p, x) && p[0] == m && Progress(p, sels, k) == |sels| - 1
    decreases m, 0
  {
    var k' := Advance(m, sels, k);
    var last := |sels| - 1;
    ChainForestMembers(m.children, sels, k', x);
    var i :| 0 <= i < |m.children| && x in ChainSubtree(m.children[i], sels, k');
    var c := m.children[i];
    ChainSubtreeMembers(c, sels, k', x);
    if x == c && k' == last && Matches(c, sels[k']) {
      ProgressCons(m, [], sels, k);
      PathCons(m, [], x);
    } else {
      var q :| IsPath(q, x) && q[0] == c && Progress(q, sels, k') == last;
      ProgressCons(m, q, sels, k);
      PathCons(m, q, x);
    }
  }

  lemma ProgressCons(m: Node, q: seq<Node>, sels: seq<Selector>, k: nat)
    requires k < |sels|
    ensures Progress([m] + q, sels, k) == Progress(q, sels, Advance(m, sels, k))
  {
    assert ([m] + q)[1..] == q;
  }

  /** A path extended upward by the parent of its first element, or the
      one-element path of a parent. */
  lemma PathCons(m: Node, q: seq<Node>, x: Node)
    requires m.Element?
    requires q == [] ==> x in m.children
    requires q != [] ==> IsPath(q, x) && q[0] in m.children
    ensures IsPath([m] + q, x)
  {
    var p := [m] + q;
    forall j | 0 <= j < |p| - 1
      ensures p[j].Element? && p[j + 1] in p[j].children
    {
      if j > 0 {
        assert p[j] == q[j - 1] && p[j + 1] == q[j];
      }
    }
  }

  lemma {:induction false} ChildrenComplete(m: Node, sels: seq<Selector>, k: nat, x: Node)
    requires m.Element? && k < |sels|
    requires Matches(x, sels[|sels| - 1])
    requires exists p :: IsPath(p, x) && p[0] == m && Progress(p, sels, k) == |sels| - 1
    ensures x in ChainForest(m.children, sels, Advance(m, sels, k))
    decreases m, 0
  {
    var k' := Advance(m, sels, k);
    ChainForestMembers(m.children, sels, k', x);
    var p: seq<Node> :| IsPath(p, x) && p[0] == m && Progress(p, sels, k) == |sels| - 1;
    var c := PathTail(p, x);
    var i :| 0 <= i < |m.children| && m.children[i] == c;
    ChainSubtreeMembers(m.children[i], sels, k', x);
  }

  /** A path without its first element: it starts at the child `c` of that
      element, which is `x` itself when nothing is left. */
  lemma PathTail(p: seq<Node>, x: Node) returns (c: Node)
    requires IsPath(p, x)
    ensures c in p[0].children
    ensures |p| == 1 ==> c == x
    ensures |p| > 1 ==> IsPath(p[1..], x) && p[1..][0] == c
  {
    if |p| == 1 {
      c := x;
    } else {
      c := p[1];
      var q := p[1..];
      forall j | 0 <= j < |q| - 1
        ensures q[j].Element? && q[j + 1] in q[j].children
      {
        assert q[j] == p[j + 1] && q[j + 1] == p[j + 2];
      }
    }
  }

  /** The chain below an element `n` selects exactly what `ChainMatch` describes. */
  lemma ChildrenChainMatch(n: Node, sels: seq<Selector>)
    requires n.Element? && |sels| > 0
    ensures forall x :: x in ChainForest(n.children, sels, Advance(n, sels, 0)) <==> ChainMatch(n, sels, x)
  {
    var last := |sels| - 1;
    assert sels[0..last] == sels[..last];
    forall x
      ensures x in ChainForest(n.children, sels, Advance(n, sels, 0)) <==> ChainMatch(n, sels, x)
    {
      ChildrenMembers(n, sels, 0, x);
      if exists p :: IsPath(p, x) && p[0] == n && Progress(p, sels, 0) == last {
        var p :| IsPath(p, x) && p[0] == n && Progress(p, sels, 0) == last;
        ProgressEmbeds(p, sels, 0);
      }
      if ChainMatch(n, sels, x) {
        var p :| IsPath(p, x) && p[0] == n && Embeds(p, sels[..last]);
        ProgressEmbeds(p, sels, 0);
      }
    }
  }

  /** No path starts at a text node. */
  lemma NoPathFromText(n: Node, sels: seq<Selector>)
    requires n.Text? && |sels| > 0
    ensures forall x :: !ChainMatch(n, sels, x)
  {
    forall x: Node, p: seq<Node> | IsPath(p, x)
      ensures p[0] != n
    {
      if |p| > 1 {
        assert p[0].Element?;
      }
    }
  }

  /** A chain of one selector is the plain query. */
  lemma {:induction false} ChainSubtreeSingle(n: Node, s: Selector)
    ensures ChainSubtree(n, [s], 0) == Filter(Subtree(n), s)
    decreases n, 1
  {
    match n
    case Text(_, _) =>
    case Element(_, _, _, _, children) =>
      ChainForestSingle(children, s);
      FilterAppend([n], Forest(children), s);
      assert [n][1..] == [];
  }

  lemma {:induction false} ChainForestSingle(ns: seq<Node>, s: Selector)
    ensures ChainForest(ns, [s], 0) == Filter(Forest(ns), s)
    decreases ns, 0
  {
    if ns != [] {
      ChainSubtreeSingle(ns[0], s);
      ChainForestSingle(ns[1..], s);
      FilterAppend(Subtree(ns[0]), Forest(ns[1..]), s);
    }
  }

  lemma QueryChainSingle(n: Node, s: Selector)
    ensures QueryChain(n, [s]) == QuerySelectorAll(n, s)
  {
    if n.Element? {
      ChainForestSingle(n.children, s);
    }
  }

  /** `String.prototype.startsWith` */
  predicate StartsWith(s: string, prefix: string) {
    |prefix| <= |s| && s[..|prefix|] == prefix
  }

  // ---- Document order of the chain query -------------------------------------

  /** `a` is `b` with some entries left out and the others in their order. */
  predicate IsSubsequence(a: seq<Node>, b: seq<Node>)
    decreases |b|
  {
    if a == [] then true
    else if b == [] then false
    else (a[0] == b[0] && IsSubsequence(a[1..], b[1..])) || IsSubsequence(a, b[1..])
  }

  /** No node occurs twice in `b`. */
  predicate Distinct(b: seq<Node>) {
    forall i, j :: 0 <= i < j < |b| ==> b[i] != b[j]
  }

  /** `x` is the first of the descendants of `n`, in document order, that the
      chain `sels` selects. */
  ghost predicate FirstChainMatch(n: Node, sels: seq<Selector>, x: Node)
    requires |sels| > 0
  {
    exists i :: 0 <= i < |Descendants(n)| && Descendants(n)[i] == x && ChainMatch(n, sels, x) &&
      forall j :: 0 <= j < i ==> !ChainMatch(n, sels, Descendants(n)[j])
  }

  lemma {:induction false} SubsequenceMembers(a: seq<Node>, b: seq<Node>)
    requires IsSubsequence(a, b)
    ensures forall x :: x in a ==> x in b
    decreases |b|
  {
    if a != [] {
      if a[0] == b[0] && IsSubsequence(a[1..], b[1..]) {
        SubsequenceMembers(a[1..], b[1..]);
        forall x | x in a
          ensures x in b
        {
          if x != a[0] {
            assert x in a[1..];
          }
        }
      } else {
        SubsequenceMembers(a, b[1..]);
      }
    }
  }

  lemma {:induction false} SubsequenceAppend(a1: seq<Node>, b1: seq<Node>, a2: seq<Node>, b2: seq<Node>)
    requires IsSubsequence(a1, b1) && IsSubsequence(a2, b2)
    ensures IsSubsequence(a1 + a2, b1 + b2)
    decreases |b1|
  {
    if b1 == [] {
      assert a1 + a2 == a2 && b1 + b2 == b2;
    } else if a1 != [] && a1[0] == b1[0] && IsSubsequence(a1[1..], b1[1..]) {
      SubsequenceAppend(a1[1..], b1[1..], a2, b2);
      assert (a1 + a2)[0] == (b1 + b2)[0];
      assert (a1 + a2)[1..] == a1[1..] + a2 && (b1 + b2)[1..] == b1[1..] + b2;
    } else {
      SubsequenceAppend(a1, b1[1..], a2, b2);
      assert (b1 + b2)[1..] == b1[1..] + b2;
    }
  }

  /** The chain query keeps document order. */
  lemma {:induction false} ChainSubtreeInOrder(m: Node, sels: seq<Selector>, k: nat)
    requires k < |sels|
    ensures IsSubsequence(ChainSubtree(m, sels, k), Subtree(m))
    decreases m, 1
  {
    match m {
      case Text(_, _) =>
      case Element(_, _, _, _, children) =>
        ChainForestInOrder(children, sels, Advance(m, sels, k));
        var head := if k == |sels| - 1 && Matches(m, sels[k]) then [m] else [];
        assert IsSubsequence(head, [m]) by {
          assert [m][1..] == [];
        }
        SubsequenceAppend(head, [m], ChainForest(children, sels, Advance(m, sels, k)), Forest(children));
    }
  }

  lemma {:induction false} ChainForestInOrder(ns: seq<Node>, sels: seq<Selector>, k: nat)
    requires k < |sels|
    ensures IsSubsequence(ChainForest(ns, sels, k), Forest(ns))
    decreases ns, 0
  {
    if ns != [] {
      ChainSubtreeInOrder(ns[0], sels, k);
      ChainForestInOrder(ns[1..], sels, k);
      SubsequenceAppend(ChainSubtree(ns[0], sels, k), Subtree(ns[0]), ChainForest(ns[1..], sels, k), Forest(ns[1..]));
    }
  }

  /** The head of a subsequence of a list without repeats comes, in that
      list, after no other entry of the subsequence. */
  lemma {:induction false} SubsequenceHead(a: seq<Node>, b: seq<Node>)
    requires IsSubsequence(a, b) && a != [] && Distinct(b)
    ensures exists i :: 0 <= i < |b| && b[i] == a[0] && forall j :: 0 <= j < i ==> b[j] !in a
    decreases |b|
  {
    if a[0] == b[0] && IsSubsequence(a[1..], b[1..]) {
      assert b[0] == a[0];
    } else {
      assert Distinct(b[1..]) by {
        forall i, j | 0 <= i < j < |b[1..]|
          ensures b[1..][i] != b[1..][j]
        {
          assert b[1..][i] == b[i + 1] && b[1..][j] == b[j + 1];
        }
      }
      assert b[0] !in b[1..] by {
        forall l | 0 <= l < |b[1..]|
          ensures b[1..][l] != b[0]
        {
          assert b[1..][l] == b[l + 1];
        }
      }
      SubsequenceMembers(a, b[1..]);
      SubsequenceHead(a, b[1..]);
      var i :| 0 <= i < |b[1..]| && b[1..][i] == a[0] && forall j :: 0 <= j < i ==> b[1..][j] !in a;
      forall j | 0 <= j < i + 1
        ensures b[j] !in a
      {
        if j > 0 {
          assert b[j] == b[1..][j - 1];
        }
      }
      assert b[i + 1] == a[0];
    }
  }

  /** With no repeated descendants, the head of the chain query is the
      first descendant, in document order, that the chain selects. */
  lemma QueryChainHeadIsFirst(n: Node, sels: seq<Selector>)
    requires |sels| > 0 && QueryChain(n, sels) != []
    ensures Distinct(Descendants(n)) ==> FirstChainMatch(n, sels, QueryChain(n, sels)[0])
  {
    var all := QueryChain(n, sels);
    if Distinct(Descendants(n)) {
      SubsequenceHead(all, Descendants(n));
      var d := Descendants(n);
      var i :| 0 <= i < |d| && d[i] == all[0] && forall j :: 0 <= j < i ==> d[j] !in all;
      assert all[0] in all;
      assert ChainMatch(n, sels, d[i]);
    }
  }

  // ---- DOMTokenList (`classList`) operations --------------------------------

  /** `classList.remove(token)`: every occurrence goes, the rest keep their order. */
  function RemoveToken(cs: seq<string>, t: string): (r: seq<string>)
    ensures t !in r
    ensures forall c :: c != t ==> (c in r <==> c in cs)
    ensures t !in cs ==> r == cs
  {
    if cs == [] then []
    else (if cs[0] == t then [] else [cs[0]]) + RemoveToken(cs[1..], t)
  }

  /** `classList.add(token)`: appended when absent, otherwise no change. */
  function AddToken(cs: seq<string>, t: string): (r: seq<string>)
    ensures t in r
    ensures forall c :: c != t ==> (c in r <==> c in cs)
    ensures t in cs ==> r == cs
    ensures t !in cs ==> r == cs + [t]
  {
    if t in cs then cs else cs + [t]
  }

  /** `classList.toggle(token, force)`: present afterwards exactly when `force`. */
  function ToggleToken(cs: seq<string>, t: string, force: bool): (r: seq<string>)
    ensures (t in r) == force
    ensures forall c :: c != t ==> (c in r <==> c in cs)
  {
    if force then AddToken(cs, t) else RemoveToken(cs, t)
  }
}

=== FILE: favicon_notification.dfy ===
/**
 * asana-favicon-notification.js: wait for Asana's sidebar, then keep the
 * tab's favicon in step with the sidebar's notification indicator,
 * rewriting the icon only when the notification state changes.
 */
module FaviconNotification {
  import opened Dom
  import opened Mutations
  import opened Observation

  /** `#asana_sidebar`, `#asana_full_page` and `.NotificationsIndicator` */
  const Sidebar := IdSelector("asana_sidebar")
  const FullPage := IdSelector("asana_full_page")
  const NotificationsIndicator := ClassSelector("NotificationsIndicator")

  // ---- waitForSideBar --------------------------------------------------------

  /** The observer callback of `waitForSideBar`: a sidebar among the added
      nodes resolves the promise, even when a full-page view was added in
      the same batch; a full-page view alone rejects it (no sidebar will
      come); otherwise it keeps waiting. There is no timeout. */
  function SidebarCallback(w: Watch, batch: seq<Record>): (r: Watch)
    ensures r.connected ==> r == w
    ensures r != w ==> w.connected && !r.connected && r.installed == w.installed && r.disconnects == w.disconnects + 1
    ensures r != w ==> (r.outcome.Resolved? <==> QueryAll(AddedNodes(batch), Sidebar) != [])
    ensures r.outcome.Resolved? && r != w ==>
      QueryAll(AddedNodes(batch), Sidebar) != [] && r.outcome == Resolved(QueryAll(AddedNodes(batch), Sidebar)[0])
    ensures r.outcome.Rejected? && r != w ==> r.outcome.reason.None? && QueryAll(AddedNodes(batch), FullPage) != []
    ensures w.connected && (QueryAll(AddedNodes(batch), Sidebar) != [] || QueryAll(AddedNodes(batch), FullPage) != []) ==> r != w
  {
    if !w.connected then w
    else
      var added := AddedNodes(batch);
      var sidebars := QueryAll(added, Sidebar);
      if sidebars != [] then Watch(Resolved(sidebars[0]), w.installed, false, w.disconnects + 1)
      else if QueryAll(added, FullPage) != [] then Watch(Rejected(None), w.installed, false, w.disconnects + 1)
      else w
  }

  function SidebarObserver(): (Watch, seq<Record>) -> Watch
  {
    (w, batch) => SidebarCallback(w, batch)
  }

  lemma SidebarObserverIsCallback()
    ensures IsCallback(SidebarObserver())
  {
  }

  /** A batch that adds both a sidebar and a full-page view resolves with
      the sidebar. */
  lemma SidebarBeforeFullPage(w: Watch, batch: seq<Record>)
    requires Wf(w) && w.connected
    requires QueryAll(AddedNodes(batch), Sidebar) != []
    requires QueryAll(AddedNodes(batch), FullPage) != []
    ensures SidebarCallback(w, batch).outcome == Resolved(QueryAll(AddedNodes(batch), Sidebar)[0])
    ensures Matches(SidebarCallback(w, batch).outcome.node, Sidebar)
    ensures !SidebarCallback(w, batch).connected && SidebarCallback(w, batch).disconnects == 1
  {
    assert QueryAll(AddedNodes(batch), Sidebar)[0] in QueryAll(AddedNodes(batch), Sidebar);
  }

  /** A full-page view without a sidebar rejects and disconnects. */
  lemma FullPageRejects(w: Watch, batch: seq<Record>)
    requires Wf(w) && w.connected
    requires QueryAll(AddedNodes(batch), Sidebar) == []
    requires QueryAll(AddedNodes(batch), FullPage) != []
    ensures SidebarCallback(w, batch).outcome == Rejected(None)
    ensures !SidebarCallback(w, batch).connected && SidebarCallback(w, batch).disconnects == 1
  {
  }

  /** Without a timeout, the promise stays pending and the observer
      connected for as many batches as arrive without a sidebar or a
      full-page view. */
  lemma WaitsWithoutTimeout(w: Watch, batches: seq<seq<Record>>)
    requires Wf(w) && w.connected
    requires forall i :: 0 <= i < |batches| ==>
      QueryAll(AddedNodes(batches[i]), Sidebar) == [] && QueryAll(AddedNodes(batches[i]), FullPage) == []
    ensures Run(SidebarObserver(), w, batches) == w
  {
    SidebarObserverIsCallback();
    WaitingRun(SidebarObserver(), w, batches);
  }

  /** The promise returned by `waitForSideBar`, with its observer on the body. */
  class SidebarWatcher {
    var outcome: Outcome
    var installed: bool
    var connected: bool
    var disconnects: nat

    function State(): Watch
      reads this
    {
      Watch(outcome, installed, connected, disconnects)
    }

    ghost predicate Valid()
      reads this
    {
      Wf(State())
    }

    /** `waitForSideBar()` on the document `page`: a sidebar already there
        resolves at once, without an observer. */
    constructor (page: Node)
      ensures Valid()
      ensures State() == Begin(page, Sidebar)
    {
      disconnects := 0;
      var loaded := QuerySelector(page, Sidebar);
      if loaded.Some? {
        outcome, installed, connected := Resolved(loaded.value), false, false;
      } else {
        outcome, installed, connected := Pending, true, true;
      }
    }

    /** The browser delivers a batch of mutation records of the body. */
    method OnMutations(batch: seq<Record>)
      requires Valid()
      modifies this
      ensures Valid()
      ensures State() == SidebarCallback(old(State()), batch)
    {
      if !connected {
        return;
      }
      var added := AddedNodes(batch);
      var sidebars := QueryAll(added, Sidebar);
      if sidebars != [] {
        connected, disconnects := false, disconnects + 1;
        outcome := Resolved(sidebars[0]);
        return;
      }
      var fullscreens := QueryAll(added, FullPage);
      if fullscreens != [] {
        connected, disconnects := false, disconnects + 1;
        outcome := Rejected(None);
      }
    }
  }

  // ---- updateFavicon ---------------------------------------------------------

  /** The `href` of the shortcut-icon link: the page's own icon, or one of
      the script's two icons (their image data is not modelled). */
  datatype IconHref = PageIcon(url: string) | ReadIcon | UnreadIcon

  /** The unread icon exactly when there are notifications. */
  function IconFor(hasNotifications: bool): (h: IconHref)
    ensures h == UnreadIcon <==> hasNotifications
    ensures h == ReadIcon <==> !hasNotifications
  {
    if hasNotifications then UnreadIcon else ReadIcon
  }

  /** The script's `lastState` (None for its initial null), the favicon
      link's `href` (None when the page has no `link[rel='shortcut icon']`),
      and how many times the link was rewritten and re-appended to the head. */
  datatype Favicon = Favicon(lastState: Option<bool>, link: Option<IconHref>, rewrites: nat)

  /** `updateFavicon(hasNotifications)`: nothing happens unless the argument
      differs from `lastState`; then the link gets the matching icon and
      `lastState` records the argument. Without a link the property
      assignment throws before `lastState` is recorded. */
  function UpdateFavicon(f: Favicon, hasNotifications: bool): (r: Favicon)
    ensures f.lastState == Some(hasNotifications) || f.link.None? ==> r == f
    ensures f.lastState != Some(hasNotifications) && f.link.Some? ==>
      r.lastState == Some(hasNotifications) && r.link == Some(IconFor(hasNotifications)) && r.rewrites == f.rewrites + 1
  {
    if f.lastState == Some(hasNotifications) then f
    else if f.link.None? then f
    else Favicon(Some(hasNotifications), Some(IconFor(hasNotifications)), f.rewrites + 1)
  }

  /** Once a state is recorded, the link shows the icon for it. */
  predicate Consistent(f: Favicon) {
    f.lastState.Some? ==> f.link == Some(IconFor(f.lastState.value))
  }

  /** After an update on a page with a favicon link, the link shows the icon
      for the argument, the latch holds the argument, and the invariant
      holds. */
  lemma UpdateShows(f: Favicon, hasNotifications: bool)
    requires Consistent(f)
    ensures Consistent(UpdateFavicon(f, hasNotifications))
    ensures f.link.Some? ==>
      UpdateFavicon(f, hasNotifications).lastState == Some(hasNotifications) &&
      UpdateFavicon(f, hasNotifications).link == Some(IconFor(hasNotifications))
  {
  }

  /** Calling `updateFavicon` again with the same value changes nothing. */
  lemma UpdateIdempotent(f: Favicon, hasNotifications: bool)
    ensures UpdateFavicon(UpdateFavicon(f, hasNotifications), hasNotifications) == UpdateFavicon(f, hasNotifications)
  {
  }

  /** `updateFavicon` called with each value of `hs` in turn. */
  function UpdateAll(f: Favicon, hs: seq<bool>): Favicon
    decreases |hs|
  {
    if hs == [] then f else UpdateAll(UpdateFavicon(f, hs[0]), hs[1..])
  }

  /** How many values of `hs` differ from the value before them, the first
      compared with `last`. */
  function Transitions(last: Option<bool>, hs: seq<bool>): nat
    decreases |hs|
  {
    if hs == [] then 0
    else (if last == Some(hs[0]) then 0 else 1) + Transitions(Some(hs[0]), hs[1..])
  }

  /** The icon is rewritten exactly once per change of state, never for a
      repeated value. */
  lemma {:induction false} RewritesOnlyOnTransitions(f: Favicon, hs: seq<bool>)
    requires f.link.Some?
    ensures UpdateAll(f, hs).rewrites == f.rewrites + Transitions(f.lastState, hs)
    ensures hs != [] ==> UpdateAll(f, hs).lastState == Some(hs[|hs| - 1])
    decreases |hs|
  {
    if hs != [] {
      var f' := UpdateFavicon(f, hs[0]);
      RewritesOnlyOnTransitions(f', hs[1..]);
      if |hs| > 1 {
        assert hs[1..][|hs[1..]| - 1] == hs[|hs| - 1];
      }
    }
  }

  /** The module's `lastState` and the page's favicon link. */
  class FaviconLatch {
    var lastState: Option<bool>
    var link: Option<IconHref>
    var rewrites: nat

    function State(): Favicon
      reads this
    {
      Favicon(lastState, link, rewrites)
    }

    /** Script start: `lastState` is null. */
    constructor (link: Option<IconHref>)
      ensures State() == Favicon(None, link, 0)
    {
      lastState, this.link, rewrites := None, link, 0;
    }

    /** `updateFavicon(hasNotifications)`; `threw` when the page has no
        favicon link and the assignment to its `href` fails. */
    method Update(hasNotifications: bool) returns (threw: bool)
      modifies this
      ensures State() == UpdateFavicon(old(State()), hasNotifications)
      ensures threw <==> old(lastState) != Some(hasNotifications) && old(link).None?
    {
      threw := false;
      if lastState != Some(hasNotifications) {
        if link.None? {
          threw := true;
          return;
        }
        link := Some(IconFor(hasNotifications));
        rewrites := rewrites + 1;
        lastState := Some(hasNotifications);
      }
    }
  }

  // ---- install ---------------------------------------------------------------

  /** `!!sidebar.querySelector('.NotificationsIndicator')` */
  function HasNotifications(sidebar: Node): (r: bool)
    ensures r <==> exists x :: x in Descendants(sidebar) && Matches(x, NotificationsIndicator)
  {
    QuerySelector(sidebar, NotificationsIndicator).Some?
  }

  /** Where `install` stands: waiting for the sidebar, watching it, given
      up because the sidebar wait was rejected, or stopped because the first
      `lookForNotifications()` threw inside the `then` callback, before the
      sidebar observer was created. */
  datatype Phase = WaitingForSidebar | WatchingSidebar | GaveUp | Stopped

  /** The first notification check throws exactly when `updateFavicon`
      would change the state and the page has no favicon link. */
  predicate FirstCheckThrows(f: Favicon, sidebar: Node) {
    f.lastState != Some(HasNotifications(sidebar)) && f.link.None?
  }

  /** The phase once the sidebar wait has settled with `o`, the favicon
      being `f` before the first check. */
  function SettledPhase(o: Outcome, f: Favicon): (p: Phase)
    ensures p == WaitingForSidebar <==> o.Pending?
    ensures p == GaveUp <==> o.Rejected?
    ensures p == Stopped <==> o.Resolved? && FirstCheckThrows(f, o.node)
    ensures p == WatchingSidebar <==> o.Resolved? && !FirstCheckThrows(f, o.node)
  {
    match o
    case Pending => WaitingForSidebar
    case Resolved(sidebar) => if FirstCheckThrows(f, sidebar) then Stopped else WatchingSidebar
    case Rejected(_) => GaveUp
  }

  /** `install()`: the sidebar wait, and what runs once it settles. */
  class Installer {
    const favicon: FaviconLatch
    const sidebarWait: SidebarWatcher
    var phase: Phase
    /** How many times the notification state was read (`lookForNotifications`). */
    var checks: nat

    ghost predicate Valid()
      reads this, sidebarWait
    {
      && sidebarWait.Valid()
      && (phase == WaitingForSidebar <==> sidebarWait.outcome.Pending?)
      && (phase == GaveUp <==> sidebarWait.outcome.Rejected?)
      && ((phase == WatchingSidebar || phase == Stopped) <==> sidebarWait.outcome.Resolved?)
    }

    /** `lookForNotifications()` on the sidebar as it is now; `threw` when
        `updateFavicon` threw. */
    method LookForNotifications(sidebar: Node) returns (threw: bool)
      modifies this`checks, favicon
      ensures favicon.State() == UpdateFavicon(old(favicon.State()), HasNotifications(sidebar))
      ensures threw <==> FirstCheckThrows(old(favicon.State()), sidebar)
      ensures checks == old(checks) + 1
    {
      var hasNotifications := QuerySelector(sidebar, NotificationsIndicator).Some?;
      threw := favicon.Update(hasNotifications);
      checks := checks + 1;
    }

    /** `install()` on the document `page`, whose favicon link is `link`.
        A sidebar already present is checked at once, and only then is the
        sidebar observer created. */
    constructor (page: Node, link: Option<IconHref>)
      ensures Valid() && fresh(favicon) && fresh(sidebarWait)
      ensures sidebarWait.State() == Begin(page, Sidebar)
      ensures phase == SettledPhase(sidebarWait.outcome, Favicon(None, link, 0))
      ensures favicon.State() == (
        if sidebarWait.outcome.Resolved?
        then UpdateFavicon(Favicon(None, link, 0), HasNotifications(sidebarWait.outcome.node))
        else Favicon(None, link, 0))
      ensures checks == if sidebarWait.outcome.Resolved? then 1 else 0
    {
      favicon := new FaviconLatch(link);
      sidebarWait := new SidebarWatcher(page);
      phase := WaitingForSidebar;
      checks := 0;
      new;
      if sidebarWait.outcome.Resolved? {
        var threw := LookForNotifications(sidebarWait.outcome.node);
        phase := if threw then Stopped else WatchingSidebar;
      }
    }

    /** A batch of mutations of the body, seen by the sidebar wait. When it
        resolves, the notification state is read once and, unless that
        threw, the sidebar observer starts; when it rejects, the rejection
        is swallowed and nothing more happens. */
    method OnPageMutations(batch: seq<Record>)
      requires Valid()
      modifies this, sidebarWait, favicon
      ensures Valid()
      ensures sidebarWait.State() == SidebarCallback(old(sidebarWait.State()), batch)
      ensures old(phase) == WaitingForSidebar ==>
        phase == SettledPhase(sidebarWait.outcome, old(favicon.State()))
      ensures old(phase) != WaitingForSidebar ==> phase == old(phase)
      ensures favicon.State() == (
        if old(phase) == WaitingForSidebar && sidebarWait.outcome.Resolved?
        then UpdateFavicon(old(favicon.State()), HasNotifications(sidebarWait.outcome.node))
        else old(favicon.State()))
      ensures checks == old(checks) + (if old(phase) == WaitingForSidebar && sidebarWait.outcome.Resolved? then 1 else 0)
    {
      var before := phase;
      sidebarWait.OnMutations(batch);
      if before == WaitingForSidebar {
        if sidebarWait.outcome.Resolved? {
          var threw := LookForNotifications(sidebarWait.outcome.node);
          phase := if threw then Stopped else WatchingSidebar;
        } else if sidebarWait.outcome.Rejected? {
          phase := GaveUp;
        }
      }
    }

    /** A batch of mutations of the sidebar, whose subtree is now `sidebar`:
        while the sidebar is watched, the state is read again exactly when
        the batch added or removed nodes. A later throw only ends that
        callback; the observer stays. */
    method OnSidebarMutations(batch: seq<Record>, sidebar: Node)
      requires Valid()
      requires sidebarWait.outcome.Resolved? ==> sidebar.uid == sidebarWait.outcome.node.uid
      modifies this`checks, favicon
      ensures Valid()
      ensures favicon.State() == (
        if phase == WatchingSidebar && FindAddOrRemove(batch).Some?
        then UpdateFavicon(old(favicon.State()), HasNotifications(sidebar))
        else old(favicon.State()))
      ensures checks == old(checks) + (if phase == WatchingSidebar && FindAddOrRemove(batch).Some? then 1 else 0)
    {
      if phase == WatchingSidebar && FindAddOrRemove(batch).Some? {
        var _ := LookForNotifications(sidebar);
      }
    }
  }
}

=== FILE: mutations.dfy ===
/**
 * The MutationObserver helpers that asana-helpers-markdown.js and
 * asana-favicon-notification.js both define (`getAddedNodes`, `queryAll`,
 * `didAddOrRemoveNodes`); the two copies behave alike and are modelled once.
 */
module Mutations {
  import opened Dom

  datatype Kind = ChildList | Attributes | CharacterData

  /** A MutationRecord: its type and its added and removed node lists. */
  datatype Record = Record(kind: Kind, added: seq<Node>, removed: seq<Node>)

  /** `getAddedNodes(mutations)`: the added nodes of the `childList` records,
      concatenated in record order. */
  function AddedNodes(batch: seq<Record>): (r: seq<Node>)
    ensures forall x :: x in r <==>
      exists i :: 0 <= i < |batch| && batch[i].kind == ChildList && x in batch[i].added
  {
    if batch == [] then []
    else
      var rest := AddedNodes(batch[1..]);
      assert forall i :: 0 < i < |batch| ==> batch[i] == batch[1..][i - 1];
      (if batch[0].kind == ChildList then batch[0].added else []) + rest
  }

  /** Record order is kept: the added nodes of two consecutive parts of a
      batch are those of the first part followed by those of the second. */
  lemma {:induction false} AddedNodesAppend(a: seq<Record>, b: seq<Record>)
    ensures AddedNodes(a + b) == AddedNodes(a) + AddedNodes(b)
  {
    if a == [] {
      assert a + b == b;
    } else {
      assert (a + b)[0] == a[0];
      assert (a + b)[1..] == a[1..] + b;
      AddedNodesAppend(a[1..], b);
    }
  }

  /** The `childList` records of a batch, in order. */
  function ChildListRecords(batch: seq<Record>): (r: seq<Record>)
    ensures forall x :: x in r <==> x in batch && x.kind == ChildList
  {
    if batch == [] then []
    else (if batch[0].kind == ChildList then [batch[0]] else []) + ChildListRecords(batch[1..])
  }

  /** Records of any other kind contribute nothing to the added nodes. */
  lemma {:induction false} AddedNodesIgnoresOtherKinds(batch: seq<Record>)
    ensures AddedNodes(batch) == AddedNodes(ChildListRecords(batch))
  {
    if batch != [] {
      AddedNodesIgnoresOtherKinds(batch[1..]);
      var head := if batch[0].kind == ChildList then [batch[0]] else [];
      AddedNodesAppend(head, ChildListRecords(batch[1..]));
    }
  }

  /** The matching descendants of each node of `nodes`, node after node. */
  function QueryEach(nodes: seq<Node>, sel: Selector): (r: seq<Node>)
    ensures forall x :: x in r ==> Matches(x, sel)
  {
    if nodes == [] then [] else QuerySelectorAll(nodes[0], sel) + QueryEach(nodes[1..], sel)
  }

  lemma {:induction false} QueryEachMembers(nodes: seq<Node>, sel: Selector, x: Node)
    ensures x in QueryEach(nodes, sel) <==> exists n :: n in nodes && x in QuerySelectorAll(n, sel)
  {
    if nodes != [] {
      QueryEachMembers(nodes[1..], sel, x);
      assert forall n :: n in nodes <==> n == nodes[0] || n in nodes[1..];
    }
  }

  lemma {:induction false} QueryEachAppend(a: seq<Node>, b: seq<Node>, sel: Selector)
    ensures QueryEach(a + b, sel) == QueryEach(a, sel) + QueryEach(b, sel)
  {
    if a == [] {
      assert a + b == b;
    } else {
      assert (a + b)[0] == a[0];
      assert (a + b)[1..] == a[1..] + b;
      QueryEachAppend(a[1..], b, sel);
    }
  }

  /** `queryAll(nodes, query)`: the nodes that match themselves, in order,
      followed by the matching descendants of each node, node after node.
      Every node it returns matches; a node without `matches` and
      `querySelectorAll` (a text node) contributes nothing. */
  function QueryAll(nodes: seq<Node>, sel: Selector): (r: seq<Node>)
    ensures forall x :: x in r ==> Matches(x, sel)
    ensures Filter(nodes, sel) <= r
  {
    Filter(nodes, sel) + QueryEach(nodes, sel)
  }

  /** What `queryAll` finds: an added node that matches, or a matching
      descendant of an added node, and nothing else. */
  lemma QueryAllMembers(nodes: seq<Node>, sel: Selector, x: Node)
    ensures x in QueryAll(nodes, sel) <==>
      (x in nodes && Matches(x, sel)) || exists n :: n in nodes && x in Descendants(n) && Matches(x, sel)
  {
    QueryEachMembers(nodes, sel, x);
  }

  /** A node that matches itself comes before every descendant match: the
      first result of `queryAll` is the first added node that matches, when
      there is one. */
  lemma SelfMatchFirst(nodes: seq<Node>, sel: Selector, i: nat)
    requires i < |nodes| && Matches(nodes[i], sel)
    requires forall j :: 0 <= j < i ==> !Matches(nodes[j], sel)
    ensures QueryAll(nodes, sel) != [] && QueryAll(nodes, sel)[0] == nodes[i]
  {
    FilterFirst(nodes, sel, i);
  }

  /** Text nodes in the list change nothing: removing one leaves the result
      of `queryAll` as it was. */
  lemma QueryAllSkipsText(a: seq<Node>, t: Node, b: seq<Node>, sel: Selector)
    requires t.Text?
    ensures QueryAll(a + [t] + b, sel) == QueryAll(a + b, sel)
  {
    FilterSkipsText(a, t, b, sel);
    QueryEachSkipsText(a, t, b, sel);
  }

  lemma FilterSkipsText(a: seq<Node>, t: Node, b: seq<Node>, sel: Selector)
    requires t.Text?
    ensures Filter(a + [t] + b, sel) == Filter(a + b, sel)
  {
    assert Filter([t], sel) == [] by {
      assert [t][1..] == [];
    }
    FilterAppend(a, [t], sel);
    FilterAppend(a + [t], b, sel);
    FilterAppend(a, b, sel);
  }

  lemma QueryEachSkipsText(a: seq<Node>, t: Node, b: seq<Node>, sel: Selector)
    requires t.Text?
    ensures QueryEach(a + [t] + b, sel) == QueryEach(a + b, sel)
  {
    assert QueryEach([t], sel) == [] by {
      assert [t][1..] == [];
    }
    QueryEachAppend(a, [t], sel);
    QueryEachAppend(a + [t], b, sel);
    QueryEachAppend(a, b, sel);
  }

  /** The condition `didAddOrRemoveNodes` looks for in each record. */
  predicate AddsOrRemoves(r: Record) {
    r.kind == ChildList && (|r.added| > 0 || |r.removed| > 0)
  }

  /** `didAddOrRemoveNodes(mutations)`: the first `childList` record that
      added or removed a node, or undefined. */
  function FindAddOrRemove(batch: seq<Record>): (r: Option<Record>)
    ensures r.Some? <==> exists i :: 0 <= i < |batch| && AddsOrRemoves(batch[i])
    ensures r.Some? ==> r.value in batch && AddsOrRemoves(r.value)
  {
    if batch == [] then None
    else if AddsOrRemoves(batch[0]) then Some(batch[0])
    else
      var r := FindAddOrRemove(batch[1..]);
      assert forall i :: 0 < i < |batch| ==> batch[i] == batch[1..][i - 1];
      r
  }

  /** `find` stops at the first record that adds or removes a node. */
  lemma {:induction false} FindAddOrRemoveFirst(batch: seq<Record>, i: nat)
    requires i < |batch| && AddsOrRemoves(batch[i])
    requires forall j :: 0 <= j < i ==> !AddsOrRemoves(batch[j])
    ensures FindAddOrRemove(batch) == Some(batch[i])
  {
    if i > 0 {
      FindAddOrRemoveFirst(batch[1..], i - 1);
    }
  }

  /** Attribute and character-data records are ignored: keeping only the
      `childList` records gives the same answer. */
  lemma {:induction false} FindAddOrRemoveIgnoresOtherKinds(batch: seq<Record>)
    ensures FindAddOrRemove(batch) == FindAddOrRemove(ChildListRecords(batch))
  {
    if batch != [] {
      var rest := ChildListRecords(batch[1..]);
      FindAddOrRemoveIgnoresOtherKinds(batch[1..]);
      if batch[0].kind == ChildList {
        var cl := [batch[0]] + rest;
        assert ChildListRecords(batch) == cl;
        assert cl[0] == batch[0] && cl[1..] == rest;
      } else {
        assert ChildListRecords(batch) == rest;
        assert !AddsOrRemoves(batch[0]);
      }
    }
  }

  /** A batch that delivers added nodes always counts as adding or removing. */
  lemma AddedNodesMeansAddOrRemove(batch: seq<Record>)
    requires AddedNodes(batch) != []
    ensures FindAddOrRemove(batch).Some?
  {
    var x := AddedNodes(batch)[0];
    assert x in AddedNodes(batch);
    var i :| 0 <= i < |batch| && batch[i].kind == ChildList && x in batch[i].added;
    assert AddsOrRemoves(batch[i]);
  }
}

=== FILE: observation.dfy ===
/**
 * The life cycle shared by the two "wait for a node to appear" promises
 * (`waitForAddedNode` in asana-helpers-markdown.js and `waitForSideBar` in
 * asana-favicon-notification.js): a promise that settles at most once, and
 * the MutationObserver that feeds it, which is disconnected on every path
 * that settles it.
 */
module Observation {
  import opened Dom

  /** The promise: pending, resolved with a node, or rejected with a reason
      (None stands for `reject()` called without an argument). */
  datatype Outcome = Pending | Resolved(node: Node) | Rejected(reason: Option<string>)

  /** The promise together with its observer: whether `observe` was ever
      called, whether the observer is still connected, and how many times
      `disconnect` was called. */
  datatype Watch = Watch(outcome: Outcome, installed: bool, connected: bool, disconnects: nat)

  /** The observer is live exactly while the promise is pending; a settled
      promise whose observer was installed has disconnected it exactly once,
      and one that never installed an observer never disconnects. */
  predicate Wf(w: Watch) {
    && (w.connected <==> w.outcome.Pending?)
    && (w.connected ==> w.installed)
    && w.disconnects == (if w.installed && !w.outcome.Pending? then 1 else 0)
  }

  /** The watch right after the promise is created: resolved with the first
      match already under the root (`root.querySelector(target)`), without
      any observer, or pending with an observer installed on the root. */
  function Begin(root: Node, target: Selector): (w: Watch)
    ensures Wf(w)
    ensures w.outcome.Resolved? <==> exists x :: x in Descendants(root) && Matches(x, target)
    ensures w.outcome.Resolved? ==>
      w.outcome.node in Descendants(root) && Matches(w.outcome.node, target) && !w.installed
    ensures w.outcome.Resolved? ==>
      IsFirstMatch(Descendants(root), target, w.outcome.node) && w.outcome.node == QuerySelectorAll(root, target)[0]
    ensures !w.outcome.Resolved? ==> w.outcome.Pending? && w.installed && w.connected
  {
    match QuerySelector(root, target)
    case Some(m) => Watch(Resolved(m), false, false, 0)
    case None => Watch(Pending, true, true, 0)
  }

  /** Delivers the batches `ds` one after the other. */
  function Run<D>(step: (Watch, D) -> Watch, w: Watch, ds: seq<D>): Watch
    decreases |ds|
  {
    if ds == [] then w else Run(step, step(w, ds[0]), ds[1..])
  }

  /** What an observer callback may do with one batch: nothing once the
      observer is disconnected (the browser no longer calls it), and
      otherwise either keep waiting, unchanged, or settle. */
  ghost predicate IsCallback<D(!new)>(step: (Watch, D) -> Watch) {
    && (forall w: Watch, d: D :: Wf(w) ==> Wf(step(w, d)))
    && (forall w: Watch, d: D :: !w.connected ==> step(w, d) == w)
    && (forall w: Watch, d: D :: Wf(w) && step(w, d).outcome.Pending? ==> step(w, d) == w)
  }

  lemma {:induction false} RunKeepsWf<D(!new)>(step: (Watch, D) -> Watch, w: Watch, ds: seq<D>)
    requires IsCallback(step) && Wf(w)
    ensures Wf(Run(step, w, ds))
    decreases |ds|
  {
    if ds != [] {
      RunKeepsWf(step, step(w, ds[0]), ds[1..]);
    }
  }

  /** A settled promise stays as it is, whatever batches arrive afterwards:
      it never resolves or rejects a second time and never disconnects again. */
  lemma {:induction false} SettledIsFinal<D(!new)>(step: (Watch, D) -> Watch, w: Watch, ds: seq<D>)
    requires IsCallback(step) && Wf(w) && !w.outcome.Pending?
    ensures Run(step, w, ds) == w
    decreases |ds|
  {
    if ds != [] {
      SettledIsFinal(step, step(w, ds[0]), ds[1..]);
    }
  }

  lemma {:induction false} RunAppend<D>(step: (Watch, D) -> Watch, w: Watch, a: seq<D>, b: seq<D>)
    ensures Run(step, w, a + b) == Run(step, Run(step, w, a), b)
    decreases |a|
  {
    if a != [] {
      assert (a + b)[0] == a[0];
      assert (a + b)[1..] == a[1..] + b;
      RunAppend(step, step(w, a[0]), a[1..], b);
    } else {
      assert a + b == b;
    }
  }

  /** Exactly-once settlement: if the promise has settled after the first
      `k` batches, the later batches change nothing, so the outcome seen at
      the end is the one it settled with. */
  lemma SettlesOnce<D(!new)>(step: (Watch, D) -> Watch, w: Watch, ds: seq<D>, k: nat)
    requires IsCallback(step) && Wf(w) && k <= |ds|
    requires !Run(step, w, ds[..k]).outcome.Pending?
    ensures Run(step, w, ds) == Run(step, w, ds[..k])
  {
    assert ds == ds[..k] + ds[k..];
    RunAppend(step, w, ds[..k], ds[k..]);
    RunKeepsWf(step, w, ds[..k]);
    SettledIsFinal(step, Run(step, w, ds[..k]), ds[k..]);
  }

  /** The observer is disconnected at most once, and it is disconnected
      whenever the promise has settled after installing it. */
  lemma DisconnectsAtMostOnce<D(!new)>(step: (Watch, D) -> Watch, w: Watch, ds: seq<D>)
    requires IsCallback(step) && Wf(w)
    ensures Run(step, w, ds).disconnects <= 1
    ensures Run(step, w, ds).installed && !Run(step, w, ds).outcome.Pending? ==>
      !Run(step, w, ds).connected && Run(step, w, ds).disconnects == 1
  {
    RunKeepsWf(step, w, ds);
  }

  /** Batches on which the callback keeps waiting leave the watch unchanged. */
  lemma {:induction false} WaitingRun<D(!new)>(step: (Watch, D) -> Watch, w: Watch, ds: seq<D>)
    requires IsCallback(step) && Wf(w)
    requires forall i :: 0 <= i < |ds| ==> step(w, ds[i]).outcome.Pending?
    ensures Run(step, w, ds) == w
    decreases |ds|
  {
    if ds != [] {
      assert step(w, ds[0]).outcome.Pending?;
      WaitingRun(step, w, ds[1..]);
    }
  }
}

=== FILE: single_comments.dfy ===
/**
 * only-single-comments.js: on a GitHub pull request, every inline comment
 * form gets a hidden `single_comment` input and its "Add single comment"
 * button becomes the primary one, for the forms present when the script
 * starts and for those added to the page later.
 */
module SingleComments {
  import opened Dom
  import opened Mutations

  const SingleComment := "single_comment"
  const Primary := "btn-primary"

  /** `input[type="hidden"][name="single_comment"]` */
  const HiddenSingleInput: Selector := (n: Node) =>
    n.Element? && n.tag == "input" &&
    "type" in n.attrs && n.attrs["type"] == "hidden" &&
    "name" in n.attrs && n.attrs["name"] == SingleComment

  /** `form.js-inline-comment-form` */
  const InlineCommentForm: Selector := (n: Node) =>
    n.Element? && n.tag == "form" && "js-inline-comment-form" in n.classes

  /** `button[name="single_comment"]`; the selector in the script lacks its
      closing bracket, which CSS parsing supplies at the end of the string. */
  const SingleCommentButton: Selector := (n: Node) =>
    n.Element? && n.tag == "button" && "name" in n.attrs && n.attrs["name"] == SingleComment

  /** `.form-actions .btn-primary` */
  const PrimaryAction: seq<Selector> := [ClassSelector("form-actions"), ClassSelector(Primary)]

  /** `.form-actions button[name="single_comment"]` */
  const SingleCommentAction: seq<Selector> := [ClassSelector("form-actions"), SingleCommentButton]

  /** The input the script creates, with node identity `uid`. */
  function NewInput(uid: nat): (r: Node)
    ensures Matches(r, HiddenSingleInput)
    ensures !Matches(r, ClassSelector(Primary)) && !Matches(r, SingleCommentButton)
  {
    Element(uid, "input", [], map["type" := "hidden", "name" := SingleComment, "value" := "1"], [])
  }

  // ---- Class edits on the tree -----------------------------------------------

  /** `classList.add(c)` or `classList.remove(c)` */
  datatype ClassEdit = AddClass(c: string) | RemoveClass(c: string)

  function Apply(e: ClassEdit, classes: seq<string>): seq<string> {
    match e
    case AddClass(c) => AddToken(classes, c)
    case RemoveClass(c) => RemoveToken(classes, c)
  }

  /** The tree with the class edit applied to the element with identity `u`. */
  function EditSubtree(n: Node, u: nat, e: ClassEdit): (r: Node)
    ensures r.Element? <==> n.Element?
    ensures n.Element? ==> r.uid == n.uid && r.tag == n.tag && r.attrs == n.attrs
  {
    match n
    case Text(_, _) => n
    case Element(uid, tag, classes, attrs, children) =>
      Element(uid, tag, if uid == u then Apply(e, classes) else classes, attrs, EditForest(children, u, e))
  }

  function EditForest(ns: seq<Node>, u: nat, e: ClassEdit): (r: seq<Node>)
    ensures |r| == |ns|
  {
    if ns == [] then [] else [EditSubtree(ns[0], u, e)] + EditForest(ns[1..], u, e)
  }

  /** The edit applied to the element found by a query, if it found one. */
  function EditFound(n: Node, found: Option<Node>, e: ClassEdit): Node {
    match found
    case Some(x) => EditSubtree(n, x.uid, e)
    case None => n
  }

  /** What an element is apart from its children. */
  datatype Label = Label(uid: nat, tag: string, classes: seq<string>, attrs: map<string, string>)

  /** An element's label; the trees' preorders hold only elements, so the
      value given to a text node is never used. */
  function LabelOf(x: Node): Label {
    if x.Element? then Label(x.uid, x.tag, x.classes, x.attrs) else Label(0, "", [], map[])
  }

  function Labels(xs: seq<Node>): (r: seq<Label>)
    ensures |r| == |xs|
  {
    if xs == [] then [] else [LabelOf(xs[0])] + Labels(xs[1..])
  }

  /** The labels with the class edit applied to those with identity `u`. */
  function Relabel(ls: seq<Label>, u: nat, e: ClassEdit): (r: seq<Label>)
    ensures |r| == |ls|
  {
    if ls == [] then []
    else [if ls[0].uid == u then ls[0].(classes := Apply(e, ls[0].classes)) else ls[0]] + Relabel(ls[1..], u, e)
  }

  function RelabelFound(ls: seq<Label>, found: Option<Node>, e: ClassEdit): seq<Label> {
    match found
    case Some(x) => Relabel(ls, x.uid, e)
    case None => ls
  }

  lemma {:induction false} LabelsAppend(a: seq<Node>, b: seq<Node>)
    ensures Labels(a + b) == Labels(a) + Labels(b)
  {
    if a == [] {
      assert a + b == b;
    } else {
      assert (a + b)[0] == a[0];
      assert (a + b)[1..] == a[1..] + b;
      LabelsAppend(a[1..], b);
    }
  }

  lemma {:induction false} RelabelAppend(a: seq<Label>, b: seq<Label>, u: nat, e: ClassEdit)
    ensures Relabel(a + b, u, e) == Relabel(a, u, e) + Relabel(b, u, e)
  {
    if a == [] {
      assert a + b == b;
    } else {
      assert (a + b)[0] == a[0];
      assert (a + b)[1..] == a[1..] + b;
      RelabelAppend(a[1..], b, u, e);
    }
  }

  /** A class edit changes the classes of the elements with identity `u`
      and nothing else: element by element in document order, the edited
      tree has the same identities, tags and attributes, and the same
      classes except at `u`. */
  lemma {:induction false} EditSubtreeLabels(n: Node, u: nat, e: ClassEdit)
    ensures Labels(Subtree(EditSubtree(n, u, e))) == Relabel(Labels(Subtree(n)), u, e)
    decreases n, 1
  {
    match n
    case Text(_, _) =>
    case Element(uid, tag, classes, attrs, children) =>
      var n' := EditSubtree(n, u, e);
      EditForestLabels(children, u, e);
      LabelsAppend([n'], Forest(EditForest(children, u, e)));
      LabelsAppend([n], Forest(children));
      RelabelAppend(Labels([n]), Labels(Forest(children)), u, e);
      assert Labels([n]) == [LabelOf(n)] by { assert [n][1..] == []; }
      assert Labels([n']) == [LabelOf(n')] by { assert [n'][1..] == []; }
      assert Relabel([LabelOf(n)], u, e) == [LabelOf(n')] by { assert [LabelOf(n)][1..] == []; }
  }

  lemma {:induction false} EditForestLabels(ns: seq<Node>, u: nat, e: ClassEdit)
    ensures Labels(Forest(EditForest(ns, u, e))) == Relabel(Labels(Forest(ns)), u, e)
    decreases ns, 0
  {
    if ns != [] {
      var es := EditForest(ns, u, e);
      assert es[0] == EditSubtree(ns[0], u, e) && es[1..] == EditForest(ns[1..], u, e);
      EditSubtreeLabels(ns[0], u, e);
      EditForestLabels(ns[1..], u, e);
      LabelsAppend(Subtree(es[0]), Forest(es[1..]));
      LabelsAppend(Subtree(ns[0]), Forest(ns[1..]));
      RelabelAppend(Labels(Subtree(ns[0])), Labels(Forest(ns[1..])), u, e);
    }
  }

  /** A class edit keeps every identity of the tree: any property of all
      the identities before holds of all of them after. */
  lemma {:induction false} EditKeepsUids(n: Node, u: nat, e: ClassEdit, p: nat -> bool)
    requires forall x :: x in Subtree(n) ==> p(x.uid)
    ensures forall x :: x in Subtree(EditSubtree(n, u, e)) ==> p(x.uid)
    decreases n, 1
  {
    match n
    case Text(_, _) =>
    case Element(_, _, _, _, children) =>
      EditForestKeepsUids(children, u, e, p);
  }

  lemma {:induction false} EditForestKeepsUids(ns: seq<Node>, u: nat, e: ClassEdit, p: nat -> bool)
    requires forall x :: x in Forest(ns) ==> p(x.uid)
    ensures forall x :: x in Forest(EditForest(ns, u, e)) ==> p(x.uid)
    decreases ns, 0
  {
    if ns != [] {
      var es := EditForest(ns, u, e);
      assert es[0] == EditSubtree(ns[0], u, e) && es[1..] == EditForest(ns[1..], u, e);
      EditKeepsUids(ns[0], u, e, p);
      EditForestKeepsUids(ns[1..], u, e, p);
    }
  }

  // ---- defaultToSingleComment ------------------------------------------------

  /** The form with the new input inserted before its first child. */
  function Inserted(form: Node, newUid: nat): (r: Node)
    requires form.Element?
    ensures r.Element? && r.children == [NewInput(newUid)] + form.children
  {
    form.(children := [NewInput(newUid)] + form.children)
  }

  /** Then `btn-primary` removed from the first `.form-actions .btn-primary`. */
  function Demoted(form: Node, newUid: nat): Node
    requires form.Element?
  {
    EditFound(Inserted(form, newUid), QueryChainFirst(Inserted(form, newUid), PrimaryAction), RemoveClass(Primary))
  }

  /** Then `btn-primary` added to the first `.form-actions` single-comment
      button. */
  function Promoted(form: Node, newUid: nat): Node
    requires form.Element?
  {
    EditFound(Demoted(form, newUid), QueryChainFirst(Demoted(form, newUid), SingleCommentAction), AddClass(Primary))
  }

  /** Every identity in the subtree of `n` differs from `newUid`. */
  predicate FreshIn(n: Node, newUid: nat) {
    forall x :: x in Subtree(n) ==> x.uid != newUid
  }

  /** `defaultToSingleComment(form)`, the new input having identity `newUid`:
      a form that already holds a hidden `single_comment` input is left as
      it is; any other form gets one as its first child. The form itself
      keeps its identity, tag and attributes, and afterwards it holds such
      an input. */
  function FixedForm(form: Node, newUid: nat): (r: Node)
    requires form.Element? && FreshIn(form, newUid)
    ensures r.Element? && r.uid == form.uid && r.tag == form.tag && r.attrs == form.attrs
    ensures QuerySelector(form, HiddenSingleInput).Some? ==> r == form
    ensures QuerySelector(form, HiddenSingleInput).None? ==>
      r.children != [] && r.children[0] == NewInput(newUid) && |r.children| == |form.children| + 1
    ensures QuerySelector(r, HiddenSingleInput).Some?
  {
    if QuerySelector(form, HiddenSingleInput).Some? then form
    else
      PromotedShape(form, newUid);
      PromotedFindsInput(form, newUid);
      Promoted(form, newUid)
  }

  /** The edit applied, below a list of siblings, to the element found by
      a query, if it found one. */
  function EditForestFound(ns: seq<Node>, found: Option<Node>, e: ClassEdit): seq<Node> {
    match found
    case Some(x) => EditForest(ns, x.uid, e)
    case None => ns
  }

  lemma EditForestCons(x: Node, ns: seq<Node>, u: nat, e: ClassEdit)
    ensures EditForest([x] + ns, u, e) == [EditSubtree(x, u, e)] + EditForest(ns, u, e)
  {
    assert ([x] + ns)[0] == x;
    assert ([x] + ns)[1..] == ns;
  }

  /** The new input is left alone by a removal, which finds no class to
      remove, and by any edit of another element. */
  lemma InputUnedited(newUid: nat, u: nat, e: ClassEdit)
    requires u != newUid || e.RemoveClass?
    ensures EditSubtree(NewInput(newUid), u, e) == NewInput(newUid)
  {
    assert RemoveToken([], e.c) == [];
  }

  lemma InputSubtree(newUid: nat)
    ensures Subtree(NewInput(newUid)) == [NewInput(newUid)]
  {
  }

  /** The form after the demotion: the new input first, then the old
      children with `btn-primary` removed from the element found. */
  lemma DemotedShape(form: Node, newUid: nat)
    requires form.Element?
    ensures Demoted(form, newUid).Element?
    ensures Demoted(form, newUid).uid == form.uid && Demoted(form, newUid).tag == form.tag
    ensures Demoted(form, newUid).attrs == form.attrs
    ensures Demoted(form, newUid).children == [NewInput(newUid)] +
      EditForestFound(form.children, QueryChainFirst(Inserted(form, newUid), PrimaryAction), RemoveClass(Primary))
  {
    var ins := Inserted(form, newUid);
    match QueryChainFirst(ins, PrimaryAction) {
      case Some(q) =>
        EditForestCons(NewInput(newUid), form.children, q.uid, RemoveClass(Primary));
        InputUnedited(newUid, q.uid, RemoveClass(Primary));
      case None =>
    }
  }

  /** The element the promotion finds is an old one, not the new input. */
  lemma PromotedIsOld(form: Node, newUid: nat)
    requires form.Element? && FreshIn(form, newUid)
    ensures QueryChainFirst(Demoted(form, newUid), SingleCommentAction).Some? ==>
      QueryChainFirst(Demoted(form, newUid), SingleCommentAction).value.uid != newUid
  {
    var dem := Demoted(form, newUid);
    var input := NewInput(newUid);
    DemotedShape(form, newUid);
    var rest := EditForestFound(form.children, QueryChainFirst(Inserted(form, newUid), PrimaryAction), RemoveClass(Primary));
    match QueryChainFirst(dem, SingleCommentAction) {
      case Some(b) =>
        ForestCons(input, rest);
        InputSubtree(newUid);
        assert b in Forest(rest);
        assert forall x :: x in Forest(form.children) ==> x.uid != newUid;
        match QueryChainFirst(Inserted(form, newUid), PrimaryAction) {
          case Some(q) =>
            EditForestKeepsUids(form.children, q.uid, RemoveClass(Primary), (i: nat) => i != newUid);
          case None =>
        }
      case None =>
    }
  }

  /** The form after the promotion: the new input first, then the old
      children with both edits applied. */
  lemma PromotedShape(form: Node, newUid: nat)
    requires form.Element? && FreshIn(form, newUid)
    ensures Promoted(form, newUid).Element?
    ensures Promoted(form, newUid).uid == form.uid && Promoted(form, newUid).tag == form.tag
    ensures Promoted(form, newUid).attrs == form.attrs
    ensures Promoted(form, newUid).children == [NewInput(newUid)] +
      EditForestFound(
        EditForestFound(form.children, QueryChainFirst(Inserted(form, newUid), PrimaryAction), RemoveClass(Primary)),
        QueryChainFirst(Demoted(form, newUid), SingleCommentAction), AddClass(Primary))
  {
    var dem := Demoted(form, newUid);
    DemotedShape(form, newUid);
    PromotedIsOld(form, newUid);
    var rest := EditForestFound(form.children, QueryChainFirst(Inserted(form, newUid), PrimaryAction), RemoveClass(Primary));
    match QueryChainFirst(dem, SingleCommentAction) {
      case Some(b) =>
        EditForestCons(NewInput(newUid), rest, b.uid, AddClass(Primary));
        InputUnedited(newUid, b.uid, AddClass(Primary));
      case None =>
    }
  }

  /** The first hidden `single_comment` input of the fixed form is the new one. */
  lemma PromotedFindsInput(form: Node, newUid: nat)
    requires form.Element? && FreshIn(form, newUid)
    ensures QuerySelector(Promoted(form, newUid), HiddenSingleInput) == Some(NewInput(newUid))
  {
    var pro := Promoted(form, newUid);
    PromotedShape(form, newUid);
    ForestCons(NewInput(newUid), pro.children[1..]);
    assert pro.children == [NewInput(newUid)] + pro.children[1..];
    InputSubtree(newUid);
    FilterFirst(Descendants(pro), HiddenSingleInput, 0);
  }

  /** The labels of a form with the input inserted: the form's own, the
      input's, then those of its old descendants. */
  lemma InsertedLabels(form: Node, newUid: nat)
    requires form.Element?
    ensures Labels(Subtree(Inserted(form, newUid))) ==
      [LabelOf(form), LabelOf(NewInput(newUid))] + Labels(Forest(form.children))
  {
    var ins := Inserted(form, newUid);
    var input := NewInput(newUid);
    ForestCons(input, form.children);
    InputSubtree(newUid);
    assert Subtree(ins) == [ins] + ([input] + Forest(form.children));
    LabelsAppend([ins], [input] + Forest(form.children));
    LabelsAppend([input], Forest(form.children));
    assert Labels([ins]) == [LabelOf(form)] by { assert [ins][1..] == []; }
    assert Labels([input]) == [LabelOf(input)] by { assert [input][1..] == []; }
  }

  /** On a form without the input, the fix changes nothing but what the
      script asks for: after inserting the input, element by element in
      document order, only the element found by `.form-actions .btn-primary`
      loses `btn-primary` and only the single-comment button gains it. */
  lemma FixOnlyMovesPrimary(form: Node, newUid: nat)
    requires form.Element? && FreshIn(form, newUid)
    requires QuerySelector(form, HiddenSingleInput).None?
    ensures Labels(Subtree(FixedForm(form, newUid))) ==
      RelabelFound(
        RelabelFound([LabelOf(form), LabelOf(NewInput(newUid))] + Labels(Forest(form.children)),
          QueryChainFirst(Inserted(form, newUid), PrimaryAction), RemoveClass(Primary)),
        QueryChainFirst(Demoted(form, newUid), SingleCommentAction), AddClass(Primary))
  {
    InsertedLabels(form, newUid);
    var ins := Inserted(form, newUid);
    match QueryChainFirst(ins, PrimaryAction) {
      case Some(q) => EditSubtreeLabels(ins, q.uid, RemoveClass(Primary));
      case None =>
    }
    var dem := Demoted(form, newUid);
    match QueryChainFirst(dem, SingleCommentAction) {
      case Some(b) => EditSubtreeLabels(dem, b.uid, AddClass(Primary));
      case None =>
    }
  }

  /** `defaultToSingleComment` is idempotent: a fixed form is left as it is. */
  lemma FixIdempotent(form: Node, newUid: nat, newUid': nat)
    requires form.Element? && FreshIn(form, newUid)
    requires FreshIn(FixedForm(form, newUid), newUid')
    ensures FixedForm(FixedForm(form, newUid), newUid') == FixedForm(form, newUid)
  {
  }

  /** Every identity of the form with the input inserted is one of the
      form or the new one. */
  lemma InsertedUids(form: Node, newUid: nat, p: nat -> bool)
    requires form.Element?
    requires forall x :: x in Subtree(form) ==> p(x.uid)
    requires p(newUid)
    ensures forall x :: x in Subtree(Inserted(form, newUid)) ==> p(x.uid)
  {
    var ins := Inserted(form, newUid);
    ForestCons(NewInput(newUid), form.children);
    InputSubtree(newUid);
    assert Subtree(ins) == [ins] + ([NewInput(newUid)] + Forest(form.children));
    assert forall x :: x in Forest(form.children) ==> x in Subtree(form);
  }

  /** Every identity of the fixed form is one of the form or the new one. */
  lemma FixedFormUids(form: Node, newUid: nat, p: nat -> bool)
    requires form.Element? && FreshIn(form, newUid)
    requires forall x :: x in Subtree(form) ==> p(x.uid)
    requires p(newUid)
    ensures forall x :: x in Subtree(FixedForm(form, newUid)) ==> p(x.uid)
  {
    if QuerySelector(form, HiddenSingleInput).None? {
      var ins := Inserted(form, newUid);
      InsertedUids(form, newUid, p);
      match QueryChainFirst(ins, PrimaryAction) {
        case Some(q) => EditKeepsUids(ins, q.uid, RemoveClass(Primary), p);
        case None =>
      }
      var dem := Demoted(form, newUid);
      assert forall x :: x in Subtree(dem) ==> p(x.uid);
      match QueryChainFirst(dem, SingleCommentAction) {
        case Some(b) => EditKeepsUids(dem, b.uid, AddClass(Primary), p);
        case None =>
      }
      assert FixedForm(form, newUid) == Promoted(form, newUid);
    }
  }

  // ---- The page --------------------------------------------------------------

  /** `(x) => x is the element with identity u` */
  function UidIs(u: nat): Selector {
    (x: Node) => x.Element? && x.uid == u
  }

  /** The element with identity `u` in the tree, the first in document
      order if several had it. */
  function FindByUid(n: Node, u: nat): (r: Option<Node>)
    ensures r.None? <==> Filter(Subtree(n), UidIs(u)) == []
    ensures r.Some? ==> r.value in Subtree(n) && r.value.Element? && r.value.uid == u
  {
    var all := Filter(Subtree(n), UidIs(u));
    if all == [] then None else assert all[0] in all; Some(all[0])
  }

  /** The tree with the element of identity `u` replaced by `m`, the change
      an in-place edit of that element makes to the page. */
  function ReplaceSubtree(n: Node, u: nat, m: Node): Node {
    match n
    case Text(_, _) => n
    case Element(uid, _, _, _, children) =>
      if uid == u then m else n.(children := ReplaceForest(children, u, m))
  }

  function ReplaceForest(ns: seq<Node>, u: nat, m: Node): (r: seq<Node>)
    ensures |r| == |ns|
  {
    if ns == [] then [] else [ReplaceSubtree(ns[0], u, m)] + ReplaceForest(ns[1..], u, m)
  }

  lemma {:induction false} ReplaceAbsent(n: Node, u: nat, m: Node)
    requires Filter(Subtree(n), UidIs(u)) == []
    ensures ReplaceSubtree(n, u, m) == n
    decreases n, 1
  {
    match n
    case Text(_, _) =>
    case Element(uid, _, _, _, children) =>
      assert Subtree(n)[0] == n;
      FilterAppend([n], Forest(children), UidIs(u));
      assert [n][1..] == [];
      ReplaceForestAbsent(children, u, m);
  }

  lemma {:induction false} ReplaceForestAbsent(ns: seq<Node>, u: nat, m: Node)
    requires Filter(Forest(ns), UidIs(u)) == []
    ensures ReplaceForest(ns, u, m) == ns
    decreases ns, 0
  {
    if ns != [] {
      FilterAppend(Subtree(ns[0]), Forest(ns[1..]), UidIs(u));
      ReplaceAbsent(ns[0], u, m);
      ReplaceForestAbsent(ns[1..], u, m);
    }
  }

  /** After the replacement, looking the identity up finds the new element. */
  lemma {:induction false} ReplaceThenFind(n: Node, u: nat, m: Node)
    requires m.Element? && m.uid == u
    requires Filter(Subtree(n), UidIs(u)) != []
    ensures Filter(Subtree(ReplaceSubtree(n, u, m)), UidIs(u)) != []
    ensures Filter(Subtree(ReplaceSubtree(n, u, m)), UidIs(u))[0] == m
    decreases n, 1
  {
    match n
    case Element(uid, _, _, _, children) =>
      if uid == u {
        FilterFirst(Subtree(m), UidIs(u), 0);
      } else {
        var n' := ReplaceSubtree(n, u, m);
        FilterAppend([n], Forest(children), UidIs(u));
        FilterAppend([n'], Forest(n'.children), UidIs(u));
        assert [n][1..] == [] && [n'][1..] == [];
        ReplaceForestThenFind(children, u, m);
      }
  }

  lemma {:induction false} ReplaceForestThenFind(ns: seq<Node>, u: nat, m: Node)
    requires m.Element? && m.uid == u
    requires Filter(Forest(ns), UidIs(u)) != []
    ensures Filter(Forest(ReplaceForest(ns, u, m)), UidIs(u)) != []
    ensures Filter(Forest(ReplaceForest(ns, u, m)), UidIs(u))[0] == m
    decreases ns, 0
  {
    var rs := ReplaceForest(ns, u, m);
    assert rs[0] == ReplaceSubtree(ns[0], u, m) && rs[1..] == ReplaceForest(ns[1..], u, m);
    FilterAppend(Subtree(ns[0]), Forest(ns[1..]), UidIs(u));
    FilterAppend(Subtree(rs[0]), Forest(rs[1..]), UidIs(u));
    if Filter(Subtree(ns[0]), UidIs(u)) != [] {
      ReplaceThenFind(ns[0], u, m);
    } else {
      ReplaceAbsent(ns[0], u, m);
      ReplaceForestThenFind(ns[1..], u, m);
    }
  }

  /** Replacing keeps a property of all identities that holds of both trees. */
  lemma {:induction false} ReplaceKeepsUids(n: Node, u: nat, m: Node, p: nat -> bool)
    requires forall x :: x in Subtree(n) ==> p(x.uid)
    requires forall x :: x in Subtree(m) ==> p(x.uid)
    ensures forall x :: x in Subtree(ReplaceSubtree(n, u, m)) ==> p(x.uid)
    decreases n, 1
  {
    match n
    case Text(_, _) =>
    case Element(uid, _, _, _, children) =>
      if uid != u {
        ReplaceForestKeepsUids(children, u, m, p);
      }
  }

  lemma {:induction false} ReplaceForestKeepsUids(ns: seq<Node>, u: nat, m: Node, p: nat -> bool)
    requires forall x :: x in Forest(ns) ==> p(x.uid)
    requires forall x :: x in Subtree(m) ==> p(x.uid)
    ensures forall x :: x in Forest(ReplaceForest(ns, u, m)) ==> p(x.uid)
    decreases ns, 0
  {
    if ns != [] {
      var rs := ReplaceForest(ns, u, m);
      assert rs[0] == ReplaceSubtree(ns[0], u, m) && rs[1..] == ReplaceForest(ns[1..], u, m);
      ReplaceKeepsUids(ns[0], u, m, p);
      ReplaceForestKeepsUids(ns[1..], u, m, p);
    }
  }

  // ---- Identities and the inputs held ----------------------------------------

  /** No two elements of `xs` share an identity. */
  predicate UniqueIds(xs: seq<Node>) {
    forall i, j :: 0 <= i < j < |xs| ==> xs[i].uid != xs[j].uid
  }

  /** The identities of the elements of `xs`. */
  function IdSet(xs: seq<Node>): set<nat> {
    set x | x in xs :: x.uid
  }

  lemma IdSetAppend(a: seq<Node>, b: seq<Node>)
    ensures IdSet(a + b) == IdSet(a) + IdSet(b)
  {
  }

  lemma UniqueAppend(a: seq<Node>, b: seq<Node>)
    requires UniqueIds(a) && UniqueIds(b) && IdSet(a) !! IdSet(b)
    ensures UniqueIds(a + b)
  {
    forall i, j | 0 <= i < j < |a + b|
      ensures (a + b)[i].uid != (a + b)[j].uid
    {
      if j < |a| {
        assert (a + b)[i] == a[i] && (a + b)[j] == a[j];
      } else if i >= |a| {
        assert (a + b)[i] == b[i - |a|] && (a + b)[j] == b[j - |a|];
      } else {
        assert (a + b)[i] == a[i] && (a + b)[j] == b[j - |a|];
        assert a[i].uid in IdSet(a) && b[j - |a|].uid in IdSet(b);
      }
    }
  }

  lemma UniqueParts(a: seq<Node>, b: seq<Node>)
    requires UniqueIds(a + b)
    ensures UniqueIds(a) && UniqueIds(b) && IdSet(a) !! IdSet(b)
  {
    forall i, j | 0 <= i < j < |a|
      ensures a[i].uid != a[j].uid
    {
      assert a[i] == (a + b)[i] && a[j] == (a + b)[j];
    }
    forall i, j | 0 <= i < j < |b|
      ensures b[i].uid != b[j].uid
    {
      assert b[i] == (a + b)[|a| + i] && b[j] == (a + b)[|a| + j];
    }
    forall x, y | x in a && y in b
      ensures x.uid != y.uid
    {
      var i :| 0 <= i < |a| && a[i] == x;
      var j :| 0 <= j < |b| && b[j] == y;
      assert x == (a + b)[i] && y == (a + b)[|a| + j];
    }
  }

  /** Where identities are distinct, an identity names one element. */
  lemma UniqueSame(xs: seq<Node>, x: Node, y: Node)
    requires UniqueIds(xs) && x in xs && y in xs && x.uid == y.uid
    ensures x == y
  {
    var i :| 0 <= i < |xs| && xs[i] == x;
    var j :| 0 <= j < |xs| && xs[j] == y;
    assert xs[i].uid == xs[j].uid;
  }

  /** The subtree of an element of a tree with distinct identities has
      distinct identities. */
  lemma {:induction false} SubtreeUnique(n: Node, x: Node)
    requires UniqueIds(Subtree(n)) && x in Subtree(n)
    ensures UniqueIds(Subtree(x))
    decreases n, 1
  {
    match n {
      case Text(_, _) =>
      case Element(_, _, _, _, children) =>
        if x != n {
          UniqueParts([n], Forest(children));
          ForestUnique(children, x);
        }
    }
  }

  lemma {:induction false} ForestUnique(ns: seq<Node>, x: Node)
    requires UniqueIds(Forest(ns)) && x in Forest(ns)
    ensures UniqueIds(Subtree(x))
    decreases ns, 0
  {
    if ns != [] {
      UniqueParts(Subtree(ns[0]), Forest(ns[1..]));
      if x in Subtree(ns[0]) {
        SubtreeUnique(ns[0], x);
      } else {
        ForestUnique(ns[1..], x);
      }
    }
  }

  /** A class edit keeps the identities of the tree, and keeps them distinct. */
  lemma {:induction false} EditKeepsIds(n: Node, u: nat, e: ClassEdit)
    ensures IdSet(Subtree(EditSubtree(n, u, e))) == IdSet(Subtree(n))
    ensures UniqueIds(Subtree(n)) ==> UniqueIds(Subtree(EditSubtree(n, u, e)))
    decreases n, 1
  {
    match n {
      case Text(_, _) =>
      case Element(_, _, _, _, children) =>
        var r := EditSubtree(n, u, e);
        EditForestKeepsIds(children, u, e);
        IdSetAppend([n], Forest(children));
        IdSetAppend([r], Forest(r.children));
        if UniqueIds(Subtree(n)) {
          UniqueParts([n], Forest(children));
          UniqueAppend([r], Forest(r.children));
        }
    }
  }

  lemma {:induction false} EditForestKeepsIds(ns: seq<Node>, u: nat, e: ClassEdit)
    ensures IdSet(Forest(EditForest(ns, u, e))) == IdSet(Forest(ns))
    ensures UniqueIds(Forest(ns)) ==> UniqueIds(Forest(EditForest(ns, u, e)))
    decreases ns, 0
  {
    if ns != [] {
      var es := EditForest(ns, u, e);
      assert es[0] == EditSubtree(ns[0], u, e) && es[1..] == EditForest(ns[1..], u, e);
      EditKeepsIds(ns[0], u, e);
      EditForestKeepsIds(ns[1..], u, e);
      IdSetAppend(Subtree(ns[0]), Forest(ns[1..]));
      IdSetAppend(Subtree(es[0]), Forest(es[1..]));
      if UniqueIds(Forest(ns)) {
        UniqueParts(Subtree(ns[0]), Forest(ns[1..]));
        UniqueAppend(Subtree(es[0]), Forest(es[1..]));
      }
    }
  }

  /** Some element of `xs` is a hidden `single_comment` input. */
  predicate SomeInput(xs: seq<Node>) {
    exists y :: y in xs && Matches(y, HiddenSingleInput)
  }

  /** A hidden `single_comment` input lies below `x`, which is what
      `x.querySelector('input[type="hidden"][name="single_comment"]')`
      finds. */
  predicate HasInput(x: Node) {
    SomeInput(Descendants(x))
  }

  /** Every element of `xs` whose identity is in `done` holds such an input. */
  predicate AllFixed(xs: seq<Node>, done: set<nat>) {
    forall x :: x in xs && x.uid in done ==> HasInput(x)
  }

  /** A class edit leaves the hidden inputs, which it does not look at,
      where they are. */
  lemma {:induction false} EditKeepsInputs(n: Node, u: nat, e: ClassEdit, done: set<nat>)
    ensures SomeInput(Subtree(n)) ==> SomeInput(Subtree(EditSubtree(n, u, e)))
    ensures HasInput(n) ==> HasInput(EditSubtree(n, u, e))
    ensures AllFixed(Subtree(n), done) ==> AllFixed(Subtree(EditSubtree(n, u, e)), done)
    decreases n, 1
  {
    match n {
      case Text(_, _) =>
      case Element(_, _, _, _, children) =>
        var r := EditSubtree(n, u, e);
        EditForestKeepsInputs(children, u, e, done);
        assert Matches(n, HiddenSingleInput) ==> Matches(r, HiddenSingleInput);
    }
  }

  lemma {:induction false} EditForestKeepsInputs(ns: seq<Node>, u: nat, e: ClassEdit, done: set<nat>)
    ensures SomeInput(Forest(ns)) ==> SomeInput(Forest(EditForest(ns, u, e)))
    ensures AllFixed(Forest(ns), done) ==> AllFixed(Forest(EditForest(ns, u, e)), done)
    decreases ns, 0
  {
    if ns != [] {
      var es := EditForest(ns, u, e);
      assert es[0] == EditSubtree(ns[0], u, e) && es[1..] == EditForest(ns[1..], u, e);
      EditKeepsInputs(ns[0], u, e, done);
      EditForestKeepsInputs(ns[1..], u, e, done);
    }
  }

  lemma EditFoundKeeps(n: Node, found: Option<Node>, e: ClassEdit, done: set<nat>)
    ensures IdSet(Subtree(EditFound(n, found, e))) == IdSet(Subtree(n))
    ensures UniqueIds(Subtree(n)) ==> UniqueIds(Subtree(EditFound(n, found, e)))
    ensures SomeInput(Subtree(n)) ==> SomeInput(Subtree(EditFound(n, found, e)))
    ensures AllFixed(Subtree(n), done) ==> AllFixed(Subtree(EditFound(n, found, e)), done)
  {
    if found.Some? {
      EditKeepsIds(n, found.value.uid, e);
      EditKeepsInputs(n, found.value.uid, e, done);
    }
  }

  /** The form with the new input inserted: its identities are the form's
      and the new one, all distinct, and it holds an input. */
  lemma InsertedKeeps(form: Node, k: nat, done: set<nat>)
    requires form.Element? && FreshIn(form, k) && UniqueIds(Subtree(form))
    requires AllFixed(Forest(form.children), done) && k !in done
    ensures UniqueIds(Subtree(Inserted(form, k)))
    ensures IdSet(Subtree(Inserted(form, k))) == IdSet(Subtree(form)) + {k}
    ensures SomeInput(Subtree(Inserted(form, k))) && AllFixed(Subtree(Inserted(form, k)), done)
  {
    var ins := Inserted(form, k);
    var input := NewInput(k);
    ForestCons(input, form.children);
    InputSubtree(k);
    assert Subtree(ins) == [ins] + ([input] + Forest(form.children));
    UniqueParts([form], Forest(form.children));
    IdSetAppend([form], Forest(form.children));
    IdSetAppend([input], Forest(form.children));
    IdSetAppend([ins], [input] + Forest(form.children));
    UniqueAppend([input], Forest(form.children));
    UniqueAppend([ins], [input] + Forest(form.children));
    assert input in Descendants(ins);
  }

  /** The fixed form of a form without the input: its identities are the
      form's and the new input's, all distinct; it holds an input, and so
      does every element of it that held one before. */
  lemma FixedFormKeeps(form: Node, k: nat, done: set<nat>)
    requires form.Element? && FreshIn(form, k) && UniqueIds(Subtree(form))
    requires QuerySelector(form, HiddenSingleInput).None?
    requires AllFixed(Forest(form.children), done) && k !in done
    ensures UniqueIds(Subtree(FixedForm(form, k)))
    ensures IdSet(Subtree(FixedForm(form, k))) == IdSet(Subtree(form)) + {k}
    ensures AllFixed(Subtree(FixedForm(form, k)), done)
  {
    var ins := Inserted(form, k);
    InsertedKeeps(form, k, done);
    EditFoundKeeps(ins, QueryChainFirst(ins, PrimaryAction), RemoveClass(Primary), done);
    var dem := Demoted(form, k);
    EditFoundKeeps(dem, QueryChainFirst(dem, SingleCommentAction), AddClass(Primary), done);
    assert FixedForm(form, k) == Promoted(form, k);
  }

  /** Replacing the element with identity `u` by `m`, whose identities are
      those of the element it replaces and one new one, `k`: the identities
      stay distinct and gain `k`. Without such an element nothing changes. */
  lemma {:induction false} ReplaceKeepsIds(n: Node, u: nat, m: Node, k: nat)
    requires UniqueIds(Subtree(n)) && UniqueIds(Subtree(m)) && k !in IdSet(Subtree(n))
    requires forall x :: x in Subtree(n) && x.uid == u ==> IdSet(Subtree(m)) == IdSet(Subtree(x)) + {k}
    ensures UniqueIds(Subtree(ReplaceSubtree(n, u, m)))
    ensures u in IdSet(Subtree(n)) ==> IdSet(Subtree(ReplaceSubtree(n, u, m))) == IdSet(Subtree(n)) + {k}
    ensures u !in IdSet(Subtree(n)) ==> ReplaceSubtree(n, u, m) == n
    decreases n, 1
  {
    match n {
      case Text(_, _) =>
      case Element(uid, _, _, _, children) =>
        if uid == u {
          assert n in Subtree(n);
        } else {
          var r := ReplaceSubtree(n, u, m);
          UniqueParts([n], Forest(children));
          IdSetAppend([n], Forest(children));
          ReplaceForestKeepsIds(children, u, m, k);
          IdSetAppend([r], Forest(r.children));
          UniqueAppend([r], Forest(r.children));
        }
    }
  }

  lemma {:induction false} ReplaceForestKeepsIds(ns: seq<Node>, u: nat, m: Node, k: nat)
    requires UniqueIds(Forest(ns)) && UniqueIds(Subtree(m)) && k !in IdSet(Forest(ns))
    requires forall x :: x in Forest(ns) && x.uid == u ==> IdSet(Subtree(m)) == IdSet(Subtree(x)) + {k}
    ensures UniqueIds(Forest(ReplaceForest(ns, u, m)))
    ensures u in IdSet(Forest(ns)) ==> IdSet(Forest(ReplaceForest(ns, u, m))) == IdSet(Forest(ns)) + {k}
    ensures u !in IdSet(Forest(ns)) ==> ReplaceForest(ns, u, m) == ns
    decreases ns, 0
  {
    if ns != [] {
      var rs := ReplaceForest(ns, u, m);
      assert rs[0] == ReplaceSubtree(ns[0], u, m) && rs[1..] == ReplaceForest(ns[1..], u, m);
      UniqueParts(Subtree(ns[0]), Forest(ns[1..]));
      IdSetAppend(Subtree(ns[0]), Forest(ns[1..]));
      IdSetAppend(Subtree(rs[0]), Forest(rs[1..]));
      ReplaceKeepsIds(ns[0], u, m, k);
      ReplaceForestKeepsIds(ns[1..], u, m, k);
      UniqueAppend(Subtree(rs[0]), Forest(rs[1..]));
      if u !in IdSet(Forest(ns)) {
        assert rs == [rs[0]] + rs[1..];
      }
    }
  }

  /** Replacing by an `m` that holds an input keeps every input and every
      element that held one, other than the one replaced. */
  lemma {:induction false} ReplaceKeepsInputs(n: Node, u: nat, m: Node, done: set<nat>)
    requires SomeInput(Subtree(m)) && AllFixed(Subtree(m), done)
    ensures SomeInput(Subtree(n)) ==> SomeInput(Subtree(ReplaceSubtree(n, u, m)))
    ensures n.Element? && n.uid != u && HasInput(n) ==> HasInput(ReplaceSubtree(n, u, m))
    ensures AllFixed(Subtree(n), done) ==> AllFixed(Subtree(ReplaceSubtree(n, u, m)), done)
    decreases n, 1
  {
    match n {
      case Text(_, _) =>
      case Element(uid, _, _, _, children) =>
        if uid != u {
          var r := ReplaceSubtree(n, u, m);
          ReplaceForestKeepsInputs(children, u, m, done);
          assert Matches(n, HiddenSingleInput) ==> Matches(r, HiddenSingleInput);
        }
    }
  }

  lemma {:induction false} ReplaceForestKeepsInputs(ns: seq<Node>, u: nat, m: Node, done: set<nat>)
    requires SomeInput(Subtree(m)) && AllFixed(Subtree(m), done)
    ensures SomeInput(Forest(ns)) ==> SomeInput(Forest(ReplaceForest(ns, u, m)))
    ensures AllFixed(Forest(ns), done) ==> AllFixed(Forest(ReplaceForest(ns, u, m)), done)
    decreases ns, 0
  {
    if ns != [] {
      var rs := ReplaceForest(ns, u, m);
      assert rs[0] == ReplaceSubtree(ns[0], u, m) && rs[1..] == ReplaceForest(ns[1..], u, m);
      ReplaceKeepsInputs(ns[0], u, m, done);
      ReplaceForestKeepsInputs(ns[1..], u, m, done);
    }
  }

  /** After the replacement, every element with identity `u` lies in `m`. */
  lemma {:induction false} ReplacedIdInside(n: Node, u: nat, m: Node)
    ensures forall x :: x in Subtree(ReplaceSubtree(n, u, m)) && x.uid == u ==> x in Subtree(m)
    decreases n, 1
  {
    match n {
      case Text(_, _) =>
      case Element(uid, _, _, _, children) =>
        if uid != u {
          ReplacedForestIdInside(children, u, m);
        }
    }
  }

  lemma {:induction false} ReplacedForestIdInside(ns: seq<Node>, u: nat, m: Node)
    ensures forall x :: x in Forest(ReplaceForest(ns, u, m)) && x.uid == u ==> x in Subtree(m)
    decreases ns, 0
  {
    if ns != [] {
      var rs := ReplaceForest(ns, u, m);
      assert rs[0] == ReplaceSubtree(ns[0], u, m) && rs[1..] == ReplaceForest(ns[1..], u, m);
      ReplacedIdInside(ns[0], u, m);
      ReplacedForestIdInside(ns[1..], u, m);
    }
  }

  /** The `#repo-content-pjax-container` subtree, and the identity the next
      `document.createElement` gives. */
  datatype PageState = PageState(root: Node, nextUid: nat)

  /** Every node of the page was created before the next one. */
  predicate PageOk(s: PageState) {
    && (forall x :: x in Subtree(s.root) ==> x.uid < s.nextUid)
    && UniqueIds(Subtree(s.root))
  }

  /** Distinct identities in a subtree mean that no node repeats below its
      root. */
  lemma UniqueDistinct(x: Node)
    requires UniqueIds(Subtree(x))
    ensures Distinct(Descendants(x))
  {
    if x.Element? {
      UniqueParts([x], Forest(x.children));
      var d := Descendants(x);
      forall i, j | 0 <= i < j < |d|
        ensures d[i] != d[j]
      {
        assert d[i].uid != d[j].uid;
      }
    }
  }

  /** In a well-formed page no node repeats below any element. */
  lemma PageDistinct(s: PageState, x: Node)
    requires PageOk(s) && x in Subtree(s.root)
    ensures Distinct(Descendants(x))
  {
    SubtreeUnique(s.root, x);
    UniqueDistinct(x);
  }

  /** The two chain queries of the fix run on the form with the input
      inserted, then on that form with `btn-primary` removed. For a form of
      a well-formed page neither tree repeats a node, so each query finds
      the first element in document order that its chain selects. */
  lemma FixQueriesFindFirst(s: PageState, form: Node)
    requires PageOk(s) && form in Subtree(s.root) && form.Element?
    ensures Distinct(Descendants(Inserted(form, s.nextUid)))
    ensures Distinct(Descendants(Demoted(form, s.nextUid)))
    ensures QueryChainFirst(Inserted(form, s.nextUid), PrimaryAction).Some? ==>
      FirstChainMatch(Inserted(form, s.nextUid), PrimaryAction, QueryChainFirst(Inserted(form, s.nextUid), PrimaryAction).value)
    ensures QueryChainFirst(Demoted(form, s.nextUid), SingleCommentAction).Some? ==>
      FirstChainMatch(Demoted(form, s.nextUid), SingleCommentAction, QueryChainFirst(Demoted(form, s.nextUid), SingleCommentAction).value)
  {
    var k := s.nextUid;
    SubtreeUnique(s.root, form);
    SubtreeClosed(s.root, form);
    assert FreshIn(form, k);
    InsertedKeeps(form, k, {});
    var ins := Inserted(form, k);
    EditFoundKeeps(ins, QueryChainFirst(ins, PrimaryAction), RemoveClass(Primary), {});
    UniqueDistinct(ins);
    UniqueDistinct(Demoted(form, k));
  }


  /** Replacing a form of the page that lacks the input by its fixed
      version: the identities stay distinct and gain the new input's, every
      element that held an input still holds one, and the form does too. */
  lemma FixedFormReplaced(s: PageState, form: Node, done: set<nat>)
    requires PageOk(s) && form in Subtree(s.root) && QuerySelector(form, HiddenSingleInput).None?
    requires AllFixed(Subtree(s.root), done) && forall v :: v in done ==> v < s.nextUid
    ensures FreshIn(form, s.nextUid)
    ensures UniqueIds(Subtree(ReplaceSubtree(s.root, form.uid, FixedForm(form, s.nextUid))))
    ensures IdSet(Subtree(ReplaceSubtree(s.root, form.uid, FixedForm(form, s.nextUid)))) ==
      IdSet(Subtree(s.root)) + {s.nextUid}
    ensures AllFixed(Subtree(ReplaceSubtree(s.root, form.uid, FixedForm(form, s.nextUid))), done + {form.uid})
  {
    SubtreeClosed(s.root, form);
    SubtreeUnique(s.root, form);
    FixedFormKeeps(form, s.nextUid, done);
    ReplacedIds(s, form);
    ReplacedInputs(s, form, done);
  }

  lemma ReplacedIds(s: PageState, form: Node)
    requires PageOk(s) && form in Subtree(s.root) && FreshIn(form, s.nextUid)
    requires UniqueIds(Subtree(FixedForm(form, s.nextUid)))
    requires IdSet(Subtree(FixedForm(form, s.nextUid))) == IdSet(Subtree(form)) + {s.nextUid}
    ensures UniqueIds(Subtree(ReplaceSubtree(s.root, form.uid, FixedForm(form, s.nextUid))))
    ensures IdSet(Subtree(ReplaceSubtree(s.root, form.uid, FixedForm(form, s.nextUid)))) ==
      IdSet(Subtree(s.root)) + {s.nextUid}
  {
    var k := s.nextUid;
    var m := FixedForm(form, k);
    forall x | x in Subtree(s.root) && x.uid == form.uid
      ensures IdSet(Subtree(m)) == IdSet(Subtree(x)) + {k}
    {
      UniqueSame(Subtree(s.root), x, form);
    }
    assert form.uid in IdSet(Subtree(s.root));
    ReplaceKeepsIds(s.root, form.uid, m, k);
  }

  lemma ReplacedInputs(s: PageState, form: Node, done: set<nat>)
    requires form.Element? && FreshIn(form, s.nextUid) && AllFixed(Subtree(s.root), done)
    requires UniqueIds(Subtree(FixedForm(form, s.nextUid)))
    requires AllFixed(Subtree(FixedForm(form, s.nextUid)), done)
    ensures AllFixed(Subtree(ReplaceSubtree(s.root, form.uid, FixedForm(form, s.nextUid))), done + {form.uid})
  {
    var m := FixedForm(form, s.nextUid);
    assert m in Subtree(m) && HasInput(m);
    ReplaceKeepsInputs(s.root, form.uid, m, done);
    ReplacedIdInside(s.root, form.uid, m);
    var r := ReplaceSubtree(s.root, form.uid, m);
    forall x | x in Subtree(r) && x.uid == form.uid
      ensures HasInput(x)
    {
      UniqueSame(Subtree(m), x, m);
    }
  }

  /** `defaultToSingleComment` applied to the element with identity `u`, as
      the page holds it now. A form no longer in the page changes nothing
      that is seen. */
  function FixInPage(s: PageState, u: nat): (r: PageState)
    requires PageOk(s)
    ensures PageOk(r)
    ensures r.nextUid == s.nextUid || r.nextUid == s.nextUid + 1
    ensures IdSet(Subtree(s.root)) <= IdSet(Subtree(r.root))
  {
    match FindByUid(s.root, u)
    case None => s
    case Some(form) =>
      if QuerySelector(form, HiddenSingleInput).Some? then s
      else
        SubtreeClosed(s.root, form);
        FixedFormReplaced(s, form, {});
        var fixed := FixedForm(form, s.nextUid);
        FixedFormUids(form, s.nextUid, (i: nat) => i < s.nextUid + 1);
        ReplaceKeepsUids(s.root, u, fixed, (i: nat) => i < s.nextUid + 1);
        PageState(ReplaceSubtree(s.root, u, fixed), s.nextUid + 1)
  }

  /** After the fix, the form with identity `u` holds a hidden
      `single_comment` input. */
  lemma FixInPageFixes(s: PageState, u: nat)
    requires PageOk(s) && FindByUid(s.root, u).Some?
    ensures FindByUid(FixInPage(s, u).root, u).Some?
    ensures QuerySelector(FindByUid(FixInPage(s, u).root, u).value, HiddenSingleInput).Some?
  {
    var form := FindByUid(s.root, u).value;
    if QuerySelector(form, HiddenSingleInput).None? {
      SubtreeClosed(s.root, form);
      ReplaceThenFind(s.root, u, FixedForm(form, s.nextUid));
    }
  }

  /** Fixing the same form twice is fixing it once. */
  lemma FixInPageIdempotent(s: PageState, u: nat)
    requires PageOk(s)
    ensures FixInPage(FixInPage(s, u), u) == FixInPage(s, u)
  {
    if FindByUid(s.root, u).Some? {
      FixInPageFixes(s, u);
    }
  }

  /** `forms.forEach(defaultToSingleComment)` */
  function FixEach(s: PageState, forms: seq<Node>): (r: PageState)
    requires PageOk(s)
    ensures PageOk(r)
    ensures s.nextUid <= r.nextUid <= s.nextUid + |forms|
    ensures IdSet(Subtree(s.root)) <= IdSet(Subtree(r.root))
    decreases |forms|
  {
    if forms == [] then s else FixEach(FixInPage(s, forms[0].uid), forms[1..])
  }

  /** Fixing the element with identity `u` keeps every element that held
      an input holding one; afterwards the element `u`, if the page has
      it, holds one too. */
  lemma FixInPageKeepsFixed(s: PageState, u: nat, done: set<nat>)
    requires PageOk(s) && AllFixed(Subtree(s.root), done) && forall v :: v in done ==> v < s.nextUid
    ensures AllFixed(Subtree(FixInPage(s, u).root), done + {u})
  {
    match FindByUid(s.root, u) {
      case None =>
        forall x | x in Subtree(s.root)
          ensures x.uid != u
        {
          assert !Matches(x, UidIs(u));
        }
      case Some(form) =>
        if QuerySelector(form, HiddenSingleInput).Some? {
          forall x | x in Subtree(s.root) && x.uid == u
            ensures HasInput(x)
          {
            UniqueSame(Subtree(s.root), x, form);
          }
        } else {
          FixedFormReplaced(s, form, done);
        }
    }
  }

  /** The forms, among `forms`, that were created before the fixes start. */
  function OldIds(forms: seq<Node>, nextUid: nat): set<nat> {
    set f | f in forms && f.uid < nextUid :: f.uid
  }

  /** Fixing the forms one after the other: every element that held an
      input still holds one, and so does every one of the forms that
      existed before. */
  lemma {:induction false} FixEachKeepsFixed(s: PageState, forms: seq<Node>, done: set<nat>)
    requires PageOk(s) && AllFixed(Subtree(s.root), done) && forall v :: v in done ==> v < s.nextUid
    ensures AllFixed(Subtree(FixEach(s, forms).root), done + OldIds(forms, s.nextUid))
    decreases |forms|
  {
    if forms != [] {
      var s' := FixInPage(s, forms[0].uid);
      FixInPageKeepsFixed(s, forms[0].uid, done);
      var done' := if forms[0].uid < s.nextUid then done + {forms[0].uid} else done;
      FixEachKeepsFixed(s', forms[1..], done');
      forall v | v in OldIds(forms, s.nextUid)
        ensures v in done' + OldIds(forms[1..], s'.nextUid)
      {
        var f :| f in forms && f.uid < s.nextUid && f.uid == v;
        if f != forms[0] {
          assert f in forms[1..];
        }
      }
    }
  }

  /** `forms.forEach(defaultToSingleComment)`: every one of the forms that
      was in the page is still in it afterwards, and holds a hidden
      `single_comment` input. */
  lemma FixEachFixesAll(s: PageState, forms: seq<Node>)
    requires PageOk(s)
    ensures forall f :: f in forms && FindByUid(s.root, f.uid).Some? ==>
      FindByUid(FixEach(s, forms).root, f.uid).Some? &&
      QuerySelector(FindByUid(FixEach(s, forms).root, f.uid).value, HiddenSingleInput).Some?
  {
    var r := FixEach(s, forms);
    FixEachKeepsFixed(s, forms, {});
    forall f | f in forms && FindByUid(s.root, f.uid).Some?
      ensures FindByUid(r.root, f.uid).Some?
      ensures QuerySelector(FindByUid(r.root, f.uid).value, HiddenSingleInput).Some?
    {
      var x := FindByUid(s.root, f.uid).value;
      assert f.uid in IdSet(Subtree(s.root));
      assert f.uid in OldIds(forms, s.nextUid);
      var y :| y in Subtree(r.root) && y.uid == f.uid;
      assert Matches(y, UidIs(f.uid));
      var z := FindByUid(r.root, f.uid).value;
      assert HasInput(z);
    }
  }

  // ---- observe ---------------------------------------------------------------

  /** The forms `observe` fixes, in order: the inline comment forms among
      the descendants of the added nodes. An added node that is itself such
      a form is not looked at, and a text node contributes nothing. */
  function ObservedForms(batch: seq<Record>): (r: seq<Node>)
    ensures forall x :: x in r ==> Matches(x, InlineCommentForm)
  {
    QueryEach(AddedNodes(batch), InlineCommentForm)
  }

  /** The same step as the script writes it: `added.querySelectorAll` is
      called on every added node, and a text node has no such method, so
      the call throws (None) and no form of the batch is fixed. */
  function ObservedFormsAsWritten(nodes: seq<Node>): (r: Option<seq<Node>>)
    ensures r.None? <==> exists i :: 0 <= i < |nodes| && nodes[i].Text?
    ensures r.Some? ==> r.value == QueryEach(nodes, InlineCommentForm)
  {
    if nodes == [] then Some([])
    else if nodes[0].Text? then None
    else
      var rest := ObservedFormsAsWritten(nodes[1..]);
      assert forall i :: 0 < i < |nodes| ==> nodes[i] == nodes[1..][i - 1];
      match rest
      case None => None
      case Some(forms) => Some(QuerySelectorAll(nodes[0], InlineCommentForm) + forms)
  }

  /** A new comment thread arriving as a line break followed by a container
      that holds an inline comment form. */
  const LineBreak := Text(12, "\n")
  const CommentForm := Element(11, "form", ["js-inline-comment-form"], map[], [])
  const Thread := Element(10, "div", [], map[], [CommentForm])
  const ThreadBatch := [Record(ChildList, [LineBreak, Thread], [])]

  /** As written, the text node makes the whole batch throw and the form is
      never fixed; the corrected step fixes it. */
  lemma TextNodeLosesForm()
    ensures ObservedFormsAsWritten(AddedNodes(ThreadBatch)).None?
    ensures ObservedForms(ThreadBatch) == [CommentForm]
  {
    assert ThreadBatch[1..] == [];
    assert AddedNodes(ThreadBatch) == [LineBreak, Thread];
    assert AddedNodes(ThreadBatch)[0].Text?;
    var nodes := [LineBreak, Thread];
    assert nodes[1..] == [Thread] && [Thread][1..] == [];
    assert Descendants(Thread) == [CommentForm] by {
      assert [CommentForm][1..] == [];
      assert Subtree(CommentForm) == [CommentForm];
    }
    assert QuerySelectorAll(Thread, InlineCommentForm) == [CommentForm] by {
      assert [CommentForm][1..] == [];
    }
    assert QueryEach(nodes, InlineCommentForm) == QuerySelectorAll(LineBreak, InlineCommentForm) + QueryEach([Thread], InlineCommentForm);
  }

  /** On batches without text nodes the two agree. */
  lemma ObservedFormsAgree(batch: seq<Record>)
    requires forall x :: x in AddedNodes(batch) ==> x.Element?
    ensures ObservedFormsAsWritten(AddedNodes(batch)) == Some(ObservedForms(batch))
  {
    var nodes := AddedNodes(batch);
    forall i | 0 <= i < |nodes|
      ensures !nodes[i].Text?
    {
      assert nodes[i] in nodes;
    }
  }

  /** With the correction, a text node among the added nodes changes
      nothing: the forms found are those found without it. */
  lemma TextNodesIgnored(a: seq<Node>, t: Node, b: seq<Node>)
    requires t.Text?
    ensures QueryEach(a + [t] + b, InlineCommentForm) == QueryEach(a + b, InlineCommentForm)
  {
    QueryEachSkipsText(a, t, b, InlineCommentForm);
  }

  /** An added form is not fixed by `observe` unless it lies inside another
      added node. */
  lemma AddedFormItselfSkipped(form: Node)
    requires form.Element? && Matches(form, InlineCommentForm)
    requires forall x :: x in Descendants(form) ==> !Matches(x, InlineCommentForm)
    ensures ObservedForms([Record(ChildList, [form], [])]) == []
  {
    var batch := [Record(ChildList, [form], [])];
    assert batch[1..] == [];
    assert AddedNodes(batch) == [form];
    assert [form][1..] == [];
    assert QuerySelector(form, InlineCommentForm).None?;
    assert QuerySelectorAll(form, InlineCommentForm) == [];
    assert QueryEach([form], InlineCommentForm) ==
      QuerySelectorAll(form, InlineCommentForm) + QueryEach([form][1..], InlineCommentForm);
  }

  /** The body of `defaultToSingleComment` on a form without the input:
      insert the new input first, demote the first `.form-actions
      .btn-primary`, promote the single-comment button. */
  method FixForm(form: Node, newUid: nat) returns (fixed: Node)
    requires form.Element? && FreshIn(form, newUid)
    requires QuerySelector(form, HiddenSingleInput).None?
    ensures fixed == FixedForm(form, newUid)
    ensures fixed.children[0] == NewInput(newUid) && |fixed.children| == |form.children| + 1
  {
    var input := NewInput(newUid);
    fixed := form.(children := [input] + form.children);
    assert fixed == Inserted(form, newUid);
    var primary := QueryChainFirst(fixed, PrimaryAction);
    if primary.Some? {
      fixed := EditSubtree(fixed, primary.value.uid, RemoveClass(Primary));
    }
    assert fixed == Demoted(form, newUid);
    var button := QueryChainFirst(fixed, SingleCommentAction);
    if button.Some? {
      fixed := EditSubtree(fixed, button.value.uid, AddClass(Primary));
    }
    assert fixed == Promoted(form, newUid);
  }

  /** The GitHub page with the script running. */
  class PullRequestPage {
    var root: Node
    var nextUid: nat
    /** Whether the MutationObserver is installed on the root. */
    var observing: bool

    function State(): PageState
      reads this
    {
      PageState(root, nextUid)
    }

    ghost predicate Valid()
      reads this
    {
      PageOk(State())
    }

    /** Script start on the target node `target`: the forms already in it
        are fixed, in document order, and only then is the observer
        installed. */
    constructor (target: Node, nextUid: nat)
      requires PageOk(PageState(target, nextUid))
      ensures Valid() && observing
      ensures State() == FixEach(PageState(target, nextUid), QuerySelectorAll(target, InlineCommentForm))
      ensures forall f :: f in QuerySelectorAll(target, InlineCommentForm) ==>
        FindByUid(root, f.uid).Some? && QuerySelector(FindByUid(root, f.uid).value, HiddenSingleInput).Some?
    {
      root := target;
      this.nextUid := nextUid;
      observing := false;
      new;
      var forms := QuerySelectorAll(root, InlineCommentForm);
      FixAll(forms);
      observing := true;
      FixEachFixesAll(PageState(target, nextUid), forms);
      forall f | f in forms
        ensures FindByUid(target, f.uid).Some?
      {
        assert f in Subtree(target) && Matches(f, UidIs(f.uid));
      }
    }

    /** `defaultToSingleComment(form)` for the form with identity `u`. */
    method DefaultToSingleComment(u: nat)
      requires Valid()
      modifies this`root, this`nextUid
      ensures Valid()
      ensures State() == FixInPage(old(State()), u)
    {
      var found := FindByUid(root, u);
      if found.None? {
        return;
      }
      var form := found.value;
      var existing := QuerySelector(form, HiddenSingleInput);
      if existing.Some? {
        return;
      }
      SubtreeClosed(root, form);
      var fixed := FixForm(form, nextUid);
      root := ReplaceSubtree(root, u, fixed);
      nextUid := nextUid + 1;
      assert State() == FixInPage(old(State()), u);
    }

    /** `forms.forEach(defaultToSingleComment)` */
    method FixAll(forms: seq<Node>)
      requires Valid()
      modifies this`root, this`nextUid
      ensures Valid()
      ensures State() == FixEach(old(State()), forms)
    {
      for i := 0 to |forms|
        invariant Valid()
        invariant FixEach(old(State()), forms) == FixEach(State(), forms[i..])
      {
        assert forms[i..][1..] == forms[i + 1..];
        DefaultToSingleComment(forms[i].uid);
      }
    }

    /** The observer callback on a batch of mutation records, with every
        added node's forms gathered as `ObservedForms` does. */
    method Observe(batch: seq<Record>)
      requires Valid() && observing
      modifies this`root, this`nextUid
      ensures Valid()
      ensures State() == FixEach(old(State()), ObservedForms(batch))
      ensures forall f :: f in ObservedForms(batch) && FindByUid(old(root), f.uid).Some? ==>
        FindByUid(root, f.uid).Some? && QuerySelector(FindByUid(root, f.uid).value, HiddenSingleInput).Some?
    {
      var addedNodes := AddedNodes(batch);
      var forms := QueryEach(addedNodes, InlineCommentForm);
      FixEachFixesAll(State(), forms);
      FixAll(forms);
    }
  }
}
